=== FILE: README.md ===
# ssl-expiry-alert, modelled in Dafny

This project models the decision logic of `node-ssl-expiry-alert`, a tool
that checks how many days a host's TLS certificate has left and, below a
threshold, mails an alert through Mailgun. Two parts are modelled:

- **The library** (`lib/index.js`). It validates options and fills in
  defaults: host, port, server name, timeout, the Mailgun transport fields
  and the alert threshold. It evaluates the certificate's expiry to a
  number of days left (-1 when already expired) and an alert flag. It
  composes the alert subject, text and sender line. It captures a failed
  send as an undelivered outcome instead of an error. The entry point runs
  all of this in order and merges the send outcome into its result.
- **The command line** (`bin/ssl-expiry-alert.js`). It cuts argv into
  flag/value pairs and normalises each flag. It applies the pairs left to
  right over the defaults and checks the transport flags for completeness.

Modules:

- `Wrappers` holds `Option`, which stands for JavaScript's `undefined` (and
  for `NaN`), and `Result`, which stands for a Promise that resolves or
  rejects with a message.
- `JsRuntime` writes out the JavaScript built-ins the validators rely on:
  `parseInt(x, 10)`, `trim`, `toLowerCase`, `split(',')` and the decimal
  rendering of numbers. It also defines `join(',')`, which the program never
  calls, only to state that `split` loses nothing.
- `Config`, `Expiry`, `Alert` and `Pipeline` model the library.
- `Cli` models the command line. It also models the hand-over of the parsed
  options to the library (`Cli.ToLibraryOptions`).

Three features of the code that look like mistakes are modelled as written.
A lemma states each one.

- The port range test reads `port <= 0 && port > 65535`. No integer meets
  it, so no port is ever refused (`Config.PortNeverRejected`,
  `Config.GetTlsOptions`, `Cli.ApplyFlag`). The error message 'Invalid
  Port Number' that both layers carry can therefore never be produced.
- The command line refuses a transport name other than `mailgun`. The
  library ignores such a name and runs without alerting
  (`Cli.UnknownTransportDivergence`).
- The subject is `[host]SSL Certificate Expiry Alert`, with no space after
  the bracket (`Alert.SubjectHasNoSpace`), while the alert text itself
  writes `[host] SSL Certificate…` with a space.

Environment pieces are parameters:

- `isEmail: string -> bool` stands for the email regular expression.
- `fetch` stands for the TLS connection that yields the peer certificate,
  or fails with the socket's error message.
- `send` stands for Mailgun's `messages.create`. It yields a response, or
  fails with the thrown error's message.
- `now` stands for the current time. Times are integer milliseconds.

"No network activity before validation" is therefore stated as: the
result does not depend on `fetch`, `send` or `now` when validation fails.

## Model

| member | source | states |
|---|---|---|
| `JsRuntime.Trim` | lib/index.js:16 | The trimmed host is a contiguous slice of the host, empty exactly when every character is JavaScript white space; a non-empty result neither starts nor ends with white space |
| `JsRuntime.ParseInt` | lib/index.js:24 | `parseInt(x, 10)` is `NaN` exactly when no decimal digit follows the leading white space and an optional sign; a negative result comes only after a leading '-', and without one the result is never negative |
| `JsRuntime.ParseIntOfDigits` | lib/index.js:24 | A run of decimal digits followed by a non-digit reads as the number the digits denote |
| `JsRuntime.ParseIntSkipsWhiteSpace` | lib/index.js:24 | A leading white-space character does not change what `parseInt` reads |
| `JsRuntime.ParseIntIgnoresPlus` | lib/index.js:24 | A `+` in front of the digits does not change what `parseInt` reads |
| `JsRuntime.ParseIntNegates` | lib/index.js:101 | A `-` in front of the digits reads as the negation of what the digits alone read as, so `-d -5` gives a threshold of -5 |
| `JsRuntime.ParseIntLeadingZero` | lib/index.js:24 | A leading zero in front of the digits does not change what `parseInt` reads |
| `JsRuntime.ParseIntOfNumber` | lib/index.js:24 | `parseInt` of a number goes through its string form and gives the same integer back, so numeric port and threshold options keep their value |
| `JsRuntime.ParseIntWithoutDigits` | lib/index.js:24 | A value with no decimal digit is `NaN` to `parseInt` (and so becomes port 0 or threshold 30) |
| `JsRuntime.ParseIntOfRenderedNat` | lib/index.js:167 | A day count printed with `%d` and followed by a non-digit reads back through `parseInt` as the same count |
| `JsRuntime.ToLower` | bin/ssl-expiry-alert.js:43-45 | Lower-casing keeps the length and maps each character on its own: `A`-`Z` go to the letter 32 code points up, the Kelvin sign goes to `k`, and every other character is kept |
| `JsRuntime.ToLowerOfCaseVariant` | bin/ssl-expiry-alert.js:43-45 | Any spelling of a lower-case name with some of its letters capitalised lower-cases back to that name |
| `JsRuntime.JoinSplit` | bin/ssl-expiry-alert.js:78-83 | Joining the pieces of a comma split with commas gives back the original value |
| `JsRuntime.SplitJoin` | bin/ssl-expiry-alert.js:78-83 | Splitting a comma join of comma-free pieces gives back the pieces |
| `JsRuntime.SplitWithoutSeparator` | bin/ssl-expiry-alert.js:78-82 | A value without a comma splits into a one-element list of itself, so the `[value]` branch agrees with `split` |
| `Config.PortNeverRejected` | lib/index.js:25-27 | The port range test rejects no integer at all |
| `Config.GetTlsOptions` | lib/index.js:13-42 | Missing host fails 'Missing Host'; blank-after-trim host fails 'Host cannot be Empty'; otherwise success with the untrimmed host, the port `parseInt` reads from the value given (443 when absent, the number itself for a number, 0 for `NaN`), server name defaulting to the host and timeout defaulting to 10; the port never causes a failure |
| `Config.FirstInvalid` | lib/index.js:80-84 | Finds the first recipient the email test refuses: none exactly when all pass, otherwise a refused one with every earlier one accepted |
| `Config.FirstInvalidIsUnique` | lib/index.js:80-84 | The first refused recipient is determined: any refused index with all earlier ones accepted is the one found |
| `Config.GetAlertTransport` | lib/index.js:47-91 | No transport, no name or an unknown name gives no transport and no error; for 'mailgun' the failures come in the order domain, API key, sender missing, sender invalid, recipients missing, recipients empty, invalid recipient (named in the message); an accepted transport has a valid sender, at least one recipient, all valid, a one-element list for a string `emailsTo` and '' for a missing display name |
| `Config.TransportAcceptedIff` | lib/index.js:51-90 | A transport is returned exactly when the raw one is a complete Mailgun transport with a valid sender and a non-empty list of valid recipients, whatever the order of checks |
| `Config.InvalidRecipientNamed` | lib/index.js:79-84 | A complete Mailgun transport with a valid sender is refused with an error naming its first invalid recipient |
| `Config.GetAlertDaysBeforeExpiry` | lib/index.js:95-106 | The threshold is at least 1; 30 when absent or non-numeric; 1 when the parsed value is at most 0; otherwise the parsed value |
| `Config.AbsentThresholdParsesToDefault` | lib/index.js:98-101 | The default 30 written into an absent threshold reads back through `parseInt` as 30, so an absent threshold gives 30 |
| `Config.AlertDaysOfNumber` | lib/index.js:101-103 | A numeric threshold passes through unchanged exactly when it is at least 1, and is clamped to 1 otherwise |
| `Expiry.RoundDays` | lib/index.js:142 | The day count is the whole number of days nearest to the difference, a half day rounding up (`Math.round` on a non-negative quotient) |
| `Expiry.RoundDaysIsNearest` | lib/index.js:142 | No whole number of days is closer to the time difference than the rounded count |
| `Expiry.ShouldAlertSslExpiry` | lib/index.js:125-152 | Missing `valid_from` or `valid_to` fails 'Invalid Peer Certificate'; a certificate past `valid_to` gives -1 days and an alert whatever the threshold; otherwise the days left are the rounded, non-negative difference and the alert holds exactly when threshold >= days |
| `Expiry.ThresholdMonotone` | lib/index.js:143-145 | Raising the threshold keeps the day count and never turns an alert off |
| `Expiry.LaterExpiryAlertsLess` | lib/index.js:139-145 | A later expiry date never gives fewer days left, and never alerts when an earlier (unexpired) one would not |
| `Expiry.TieAlerts` | lib/index.js:142-145 | A certificate expiring in exactly T days reports T days and alerts under threshold T |
| `Expiry.FarExpiryDoesNotAlert` | lib/index.js:142-145 | A certificate expiring in more whole days than the threshold reports those days and does not alert |
| `Alert.SubjectHasNoSpace` | lib/index.js:161 | The subject holds the host between the brackets and puts 'S' straight after ']', with no space |
| `Alert.AlertMessage` | lib/index.js:163-168 | -1 days gives the "was Expired" text; 0 days or more gives the "nearly to Expire" text, the day count and " Day(s)", and the number after "Days Remaining: " reads back as the day count; below -1 the text is empty |
| `Alert.FormatSender` | lib/index.js:188-191 | The sender is the bare address exactly when the display name is blank after trimming; otherwise it is `Name <address>` with the untrimmed name |
| `Alert.Capture` | lib/index.js:200-208 | A provider response becomes a delivered outcome carrying it; a thrown error becomes an undelivered outcome carrying its message |
| `Alert.SendAlertByMailgun` | lib/index.js:183-210 | Sending never fails: the outcome is delivered exactly when the provider accepted the request; a delivered outcome carries the provider's response and an undelivered one the provider's error message |
| `Alert.AlertEmail` | lib/index.js:159-199 | No mail unless an alert is due; otherwise the subject names the host, the text equals the HTML body and is the alert text for the day count, the recipients, domain and key are the transport's, and the sender is `FormatSender` of the display name and address, the bare address exactly when the name is blank |
| `Alert.ProcessSendAlert` | lib/index.js:155-181 | Returns nothing (and sends nothing) exactly when no alert is due; otherwise the outcome of sending exactly the alert mail |
| `Pipeline.Validate` | lib/index.js:217-224 | TLS option errors come first, then transport errors; validation succeeds exactly when both validators do, and then the TLS options, the transport and the threshold (at least 1) are exactly what the validators settled on |
| `Pipeline.Check` | lib/index.js:212-244 | Validation and fetch errors propagate unchanged; a certificate without dates fails; otherwise the evaluation is reported as computed and a send outcome is attached exactly when a transport exists and an alert is due |
| `Pipeline.ValidationBeforeFetch` | lib/index.js:217-231 | When validation fails the result is that failure whatever the network, the clock or the mail provider do |
| `Pipeline.SendDoesNotAffectEvaluation` | lib/index.js:232-240 | The mail provider's behaviour never changes success, the day count, the alert flag or whether an outcome is attached |
| `Pipeline.SendFailureIsCaptured` | lib/index.js:233-240 | With a transport and an alert due, a provider that always fails still yields the evaluation plus an undelivered outcome with the provider's message |
| `Pipeline.ExpiredCertificateAlwaysAlerts` | lib/index.js:139-140 | A fetched certificate already past `valid_to` makes the check succeed with -1 days and an alert |
| `Pipeline.InvalidRecipientFailsBeforeFetch` | lib/index.js:79-84 | An invalid recipient stops the check during validation, whatever the network does, with the first invalid recipient named |
| `Cli.Chunks` | bin/ssl-expiry-alert.js:19-22 | argv becomes ceil(n/2) chunks, all pairs except a last one-element chunk when the count is odd |
| `Cli.ChunksConcat` | bin/ssl-expiry-alert.js:19-22 | The chunks put back together are argv: nothing is lost or reordered |
| `Cli.NormaliseKey` | bin/ssl-expiry-alert.js:42-48 | A key is accepted exactly when it is `--` plus two letters/hyphens (two characters stripped) or `-` plus a letter (one stripped), the rest lower-cased; other keys fail with the format message |
| `Cli.SingleHyphenLongName` | bin/ssl-expiry-alert.js:42-45 | `-host` and `--host` select the same flag |
| `Cli.KeyWithoutHyphenRejected` | bin/ssl-expiry-alert.js:46-47 | A key not starting with a hyphen is refused with the format message |
| `Cli.FlagOf` | bin/ssl-expiry-alert.js:49-92 | Every name the switch knows starts with a lower-case letter and holds only lower-case letters and hyphens |
| `Cli.FlagNames` | bin/ssl-expiry-alert.js:49-92 | `h`/`host`, `p`/`port`, `d`/`days-before` and `t`/`transport` select host, port, threshold and transport name; `email-from`, `emails-to`, `mailgun-domain` and `mailgun-apikey` select the sender, recipients, domain and API key; each flag is selected by exactly those names |
| `Cli.FlagCaseInsensitive` | bin/ssl-expiry-alert.js:42-92 | A key in any ASCII case selects the flag its lower-case name selects, after one hyphen, and after two for names of two or more characters |
| `Cli.DaysKeyAppliesThreshold` | bin/ssl-expiry-alert.js:62-69 | `-d`/`--days-before` is refused with 'Days to Alert Before Expiry should be Positive Number' exactly when its value is not a positive number, and otherwise sets the threshold to it |
| `Cli.PortKeyAppliesPort` | bin/ssl-expiry-alert.js:54-61 | `-p`/`--port` is never refused and sets the port to the parsed value, 0 for a non-number |
| `Cli.EmailsToList` | bin/ssl-expiry-alert.js:77-84 | `--emails-to` stores the comma split of its value: a non-empty list that joins back to the value |
| `Cli.ApplyFlag` | bin/ssl-expiry-alert.js:49-90 | Only `-d` fails, exactly on a non-numeric or non-positive value; `-p` stores the parsed number or 0 and is never refused; exactly the selected field changes |
| `Cli.CheckOption` | bin/ssl-expiry-alert.js:34-98 | A chunk that is not a pair fails with the argument-count message; a malformed key fails with the format message; an unknown flag fails with 'Invalid Option…'; a pair naming a known flag is applied; a chunk is accepted exactly when it is a known pair with a positive `-d` value, whatever the options so far |
| `Cli.FirstRejected` | bin/ssl-expiry-alert.js:23-25 | Finds the first chunk that is refused: none exactly when every chunk is accepted, otherwise a refused one with every earlier one accepted |
| `Cli.CheckOptions` | bin/ssl-expiry-alert.js:23-25 | Applying the chunks in order succeeds exactly when every chunk is accepted; otherwise it fails with the message of the first refused chunk |
| `Cli.CheckOptionsLastWriteWins` | bin/ssl-expiry-alert.js:23-25 | After all chunks are applied, every field holds the value of the last flag that set it, or its starting value |
| `Cli.CheckOptionsKeepDaysPositive` | bin/ssl-expiry-alert.js:62-68 | Applying flags keeps the threshold at least 1 |
| `Cli.TrailingSingleRejected` | bin/ssl-expiry-alert.js:36-38 | A final one-element chunk makes the run fail, with 'Argument passed to Command Line get Error.' when every chunk before it is accepted |
| `Cli.OddCountRejected` | bin/ssl-expiry-alert.js:20-38 | An odd number of arguments is always refused, with 'Argument passed to Command Line get Error.' when every pair before the last argument is accepted |
| `Cli.CheckTransport` | bin/ssl-expiry-alert.js:101-126 | No transport name passes; 'mailgun' needs sender, recipients, domain and API key, failing on the first missing in that order; any other name fails with 'Alert Transport you Entered was not Supported' |
| `Cli.ParseOptions` | bin/ssl-expiry-alert.js:12-32 | An empty argv fails 'No Argument Found.'; an odd count fails, with the argument-count message when the pairs before it are accepted; otherwise a refused chunk's message, or else `CheckTransport`'s verdict, is passed on unchanged; a non-empty argv is accepted exactly when every chunk is accepted and the transport check passes; an accepted result has each field from its last flag or the defaults (host '', port 443, threshold 60), a threshold of at least 1 and a transport `CheckTransport` accepts |
| `Cli.HostOnlyAccepted` | bin/ssl-expiry-alert.js:12-53 | `--host H` or `-h H` alone is accepted and gives the defaults with host H |
| `Cli.ToLibraryOptions` | bin/ssl-expiry-alert.js:154-155 | The library reads back the host, port, threshold, transport name, sender, recipients, domain and API key the command line stored; server name, timeout and display name are absent |
| `Cli.UnknownTransportDivergence` | bin/ssl-expiry-alert.js:104-122 | A transport name other than 'mailgun' is refused by the command line but silently ignored by the library |
| `Cli.ThresholdReachesLibraryUnchanged` | bin/ssl-expiry-alert.js:154-155 | The library never clamps a threshold the command line accepted |
| `Cli.PortReachesLibraryUnchanged` | bin/ssl-expiry-alert.js:154-155 | The library connects to the port the command line stored |
| `Cli.MissingHostRejectedByLibrary` | bin/ssl-expiry-alert.js:5-6 | Without a host flag the command line accepts the arguments, but the library refuses the default empty host |
| `Cli.MailgunFromCommandLineAcceptedIff` | bin/ssl-expiry-alert.js:104-119 | A Mailgun transport the command line accepted is accepted by the library exactly when its sender and every recipient are valid addresses |

## Left out

- TLS connection (`getPeerCertificate`, lib/index.js:109-123): event-driven socket I/O. It is the parameter `fetch`. The case where the socket closes without a certificate object (`null`) is not modelled.
- Mailgun client and `messages.create` (lib/index.js:192-199): a network API. It is the parameter `send`. Its response object is modelled as a string.
- `new Date()` and date-string parsing: `now` and `valid_to` are integer milliseconds. An unparseable date (a `NaN` time) is not modelled.
- Floating-point division in `Math.round`: replaced by exact integer rounding of a non-negative difference. Results can differ only where the double quotient is inexact near a half day.
- `SIMPLE_EMAIL_REGEX` (lib/index.js:7): kept opaque as the parameter `isEmail`.
- JavaScript values other than strings and integer numbers: a fractional or huge number, `null`, or a non-string host, name or recipient. These make the source throw a `TypeError` or take float paths that are not modelled. `parseInt` is modelled on exact unbounded integers, not 53-bit doubles.
- The 'Unknown' host fallback in the alert text (lib/index.js:161-167): validated TLS options always carry a host, so that fallback cannot be reached.
- JsRuntime.ToLower: models A-Z and the Kelvin sign (U+212A, lower-cased to `k`) and leaves every other character unchanged. Other characters lower-case to non-ASCII text, so the result can never match one of the ASCII flag names either way. The switch decision is therefore exact, but the lower-cased text itself is not.
- `displayHelp`, `console.log`, `process.argv` and the top-level async function (bin/ssl-expiry-alert.js:128-161): console and process plumbing.
- The library writes its defaults and normalised values back into the caller's `options` object (lib/index.js:21, 24, 30, 34, 67, 74, 99). The model returns fresh values instead, so a caller that reads `options` after the call is not modelled.
- Promise and async wrapping: every operation is a synchronous function returning a `Result`.
- The shared `alertTransport` object of `DEFAULT_OPTIONS` (bin/ssl-expiry-alert.js:14): a shallow copy aliases it across runs, which does not matter within one run.
- examples/transport-mailgun.js: a sample call that reads environment variables.

=== FILE: alert.dfy ===
/** Alert composition and dispatch: the subject and text of the alert mail,
    the sender line, the request handed to Mailgun, and the capture of the
    send's outcome. The Mailgun API call itself is a parameter `send`: it
    either answers with a response (`Success`) or throws an error whose
    message is kept (`Failure`). */
module Alert {
  import opened Wrappers
  import opened JsRuntime
  import opened Config
  import opened Expiry

  /** The request handed to Mailgun's `messages.create`. */
  datatype MailgunMessage = MailgunMessage(
    domain: string,
    apiKey: string,
    from: string,
    to: seq<string>,
    subject: string,
    text: string,
    html: string)

  /** The `{alertStatus, alertResult}` pair a send settles on. */
  datatype AlertOutcome = AlertOutcome(alertStatus: bool, alertResult: string)

  // ---------------------------------------------------------------------
  // Subject and message text
  // ---------------------------------------------------------------------

  const SubjectTail: string := "]SSL Certificate Expiry Alert"

  /** The alert subject: the host in brackets, then the title, with no space
      after the closing bracket. */
  function Subject(host: string): string {
    "[" + host + SubjectTail
  }

  /** The subject puts the host between `[` and `]` and follows the `]` with
      `S` directly: there is no space between the bracket and the title. */
  lemma SubjectHasNoSpace(host: string)
    ensures Subject(host)[1..|host| + 1] == host
    ensures Subject(host)[|host| + 1] == ']'
    ensures Subject(host)[|host| + 2] == 'S'
  {
  }

  function ExpiredText(host: string): string {
    "Your Domain [" + host + "] SSL Certificate was Expired, please update it asap."
  }

  /** The nearly-expired text up to the number of days. */
  function NearlyExpiredLead(host: string): string {
    "Your Domain [" + host + "] SSL Certificate was nearly to Expire, please update it asap. Days Remaining: "
  }

  const DaysTail: string := " Day(s)"

  /** The alert text: the "was Expired" text for -1 days, the "nearly to
      Expire" text with the number of days for 0 days or more, and empty
      text for anything below -1. */
  function AlertMessage(host: string, days: int): (text: string)
    ensures days == Expired ==> text == ExpiredText(host)
    ensures days > Expired ==> text == NearlyExpiredLead(host) + IntToString(days) + DaysTail
    ensures days > Expired ==>
      && NearlyExpiredLead(host) <= text
      && ParseInt(text[|NearlyExpiredLead(host)|..]) == Some(days)
    ensures days < Expired ==> text == []
  {
    if days == Expired then ExpiredText(host)
    else if days > Expired then
      var text := NearlyExpiredLead(host) + IntToString(days) + DaysTail;
      assert text[|NearlyExpiredLead(host)|..] == NatToString(days) + DaysTail;
      ParseIntOfRenderedNat(days, DaysTail);
      text
    else []
  }

  // ---------------------------------------------------------------------
  // sendAlertByMailgun
  // ---------------------------------------------------------------------

  /** The sender line: `Name <address>` when the display name is not blank,
      the bare address otherwise. The name itself is used untrimmed. */
  function FormatSender(name: string, address: string): (from: string)
    ensures from == address <==> IsBlank(name)
    ensures !IsBlank(name) ==> from == name + " <" + address + ">"
  {
    if !IsBlank(name) then
      assert |name + " <" + address + ">"| == |name| + |address| + 3;
      name + " <" + address + ">"
    else address
  }

  /** The request built from a validated transport, a subject and a text;
      the text doubles as the HTML body. */
  function MailgunRequest(t: Transport, subject: string, text: string): MailgunMessage {
    MailgunMessage(t.domain, t.apiKey, FormatSender(t.emailFromName, t.emailFrom), t.emailsTo, subject, text, text)
  }

  /** Captures a send's outcome: a response is a delivery, a thrown error
      becomes an undelivered outcome carrying the error's message. */
  function Capture(response: Result<string>): (o: AlertOutcome)
    ensures o.alertStatus <==> response.Success?
    ensures o.alertResult == if response.Success? then response.value else response.error
  {
    match response
    case Success(message) => AlertOutcome(true, message)
    case Failure(message) => AlertOutcome(false, message)
  }

  /** Sends one alert. It never fails: whatever `send` does, the result is
      an outcome, delivered exactly when `send` accepted the request. */
  function SendAlertByMailgun(t: Transport, subject: string, text: string,
                              send: MailgunMessage -> Result<string>): (o: AlertOutcome)
    ensures o.alertStatus <==> send(MailgunRequest(t, subject, text)).Success?
    ensures o.alertStatus ==> o.alertResult == send(MailgunRequest(t, subject, text)).value
    ensures !o.alertStatus ==> o.alertResult == send(MailgunRequest(t, subject, text)).error
  {
    Capture(send(MailgunRequest(t, subject, text)))
  }

  // ---------------------------------------------------------------------
  // processSendAlert
  // ---------------------------------------------------------------------

  /** The mail an evaluation leads to, if any: none unless an alert is due;
      otherwise the subject and text about `host` addressed as the transport
      says. */
  function AlertEmail(e: Evaluation, host: string, t: Transport): (m: Option<MailgunMessage>)
    ensures m.None? <==> !e.expiryStatus
    ensures m.Some? ==>
      && m.value.subject == Subject(host)
      && m.value.text == m.value.html == AlertMessage(host, e.daysExpireRemains)
      && m.value.to == t.emailsTo
      && m.value.domain == t.domain && m.value.apiKey == t.apiKey
      && m.value.from == FormatSender(t.emailFromName, t.emailFrom)
      && (m.value.from == t.emailFrom <==> IsBlank(t.emailFromName))
  {
    if e.expiryStatus then Some(MailgunRequest(t, Subject(host), AlertMessage(host, e.daysExpireRemains)))
    else None
  }

  /** Sends the alert an evaluation calls for. Nothing is sent and `None`
      is returned when no alert is due; otherwise the outcome of sending
      exactly `AlertEmail`'s mail is returned. */
  function ProcessSendAlert(e: Evaluation, tls: TlsOptions, t: Transport,
                            send: MailgunMessage -> Result<string>): (r: Option<AlertOutcome>)
    ensures r.None? <==> !e.expiryStatus
    ensures r.Some? ==>
      var m := AlertEmail(e, tls.host, t).value;
      && (r.value.alertStatus <==> send(m).Success?)
      && r.value.alertResult == (if send(m).Success? then send(m).value else send(m).error)
  {
    if e.expiryStatus then
      Some(SendAlertByMailgun(t, Subject(tls.host), AlertMessage(tls.host, e.daysExpireRemains), send))
    else None
  }
}

=== FILE: cli.dfy ===
/** The command-line front end: argv is cut into flag/value pairs, each pair
    is applied to the options left to right, and the transport flags are
    checked for completeness. The accepted options are then handed to the
    library unchanged; `ToLibraryOptions` states that hand-over, and the
    lemmas at the end relate what the two layers accept. */
module Cli {
  import opened Wrappers
  import opened JsRuntime
  import Config

  /** The `alertTransport` part the flags fill in. */
  datatype CliTransport = CliTransport(
    name: Option<string>,
    emailFrom: Option<string>,
    emailsTo: Option<seq<string>>,
    domain: Option<string>,
    apiKey: Option<string>)

  datatype CliOptions = CliOptions(host: string, port: int, alertDaysBeforeExpiry: int, alertTransport: CliTransport)

  /** The options before any flag is applied. */
  const DefaultOptions: CliOptions :=
    CliOptions("", 443, 60, CliTransport(None, None, None, None, None))

  /** The option a normalised flag name selects. */
  datatype Flag = HostFlag | PortFlag | DaysFlag | TransportFlag | EmailFromFlag | EmailsToFlag | DomainFlag | ApiKeyFlag

  // ---------------------------------------------------------------------
  // Cutting argv into pairs
  // ---------------------------------------------------------------------

  /** argv cut into consecutive pairs, as repeated `splice(0, 2)` does: every
      chunk has two elements except a last one of one element when the
      count is odd. */
  function Chunks(args: seq<string>): (cs: seq<seq<string>>)
    ensures |cs| == (|args| + 1) / 2
    ensures forall k :: 0 <= k < |cs| - 1 ==> |cs[k]| == 2
    ensures |cs| > 0 ==> |cs[|cs| - 1]| == 2 - |args| % 2
    decreases |args|
  {
    if |args| == 0 then []
    else if |args| == 1 then [args]
    else [args[..2]] + Chunks(args[2..])
  }

  function Concat(cs: seq<seq<string>>): seq<string>
    decreases |cs|
  {
    if |cs| == 0 then [] else cs[0] + Concat(cs[1..])
  }

  /** The chunks, put back together, are argv: nothing is lost or reordered. */
  lemma {:induction false} ChunksConcat(args: seq<string>)
    ensures Concat(Chunks(args)) == args
    decreases |args|
  {
    if |args| >= 2 {
      var cs := Chunks(args);
      assert cs[0] == args[..2] && cs[1..] == Chunks(args[2..]);
      ChunksConcat(args[2..]);
      assert args == args[..2] + args[2..];
    } else if |args| == 1 {
      assert Concat(Chunks(args)) == args + Concat([]);
    }
  }

  // ---------------------------------------------------------------------
  // checkOption
  // ---------------------------------------------------------------------

  predicate IsFlagChar(c: char) {
    IsAsciiLetter(c) || c == '-'
  }

  /** `--` followed by at least two letters or hyphens. */
  predicate IsLongKey(key: string) {
    |key| >= 4 && key[0] == '-' && key[1] == '-' && IsFlagChar(key[2]) && IsFlagChar(key[3])
  }

  /** `-` followed by a letter. */
  predicate IsShortKey(key: string) {
    |key| >= 2 && key[0] == '-' && IsAsciiLetter(key[1])
  }

  /** The flag name a key stands for: a long key loses two characters, a
      short key one, and the rest is lower-cased; any other key is refused. */
  function NormaliseKey(key: string): (r: Result<string>)
    ensures r.Success? <==> IsLongKey(key) || IsShortKey(key)
    ensures r.Failure? ==> r.error == "Invalid Option Format, Should start with -- or -"
    ensures IsLongKey(key) ==> r == Success(ToLower(key[2..]))
    ensures !IsLongKey(key) && IsShortKey(key) ==> r == Success(ToLower(key[1..]))
  {
    if IsLongKey(key) then Success(ToLower(key[2..]))
    else if IsShortKey(key) then Success(ToLower(key[1..]))
    else Failure("Invalid Option Format, Should start with -- or -")
  }

  /** A long name written with a single hyphen means the same flag as with
      two: `-host` and `--host` both select `host`. */
  lemma SingleHyphenLongName(name: string)
    requires |name| >= 2 && IsAsciiLetter(name[0]) && IsAsciiLetter(name[1])
    ensures NormaliseKey("-" + name) == NormaliseKey("--" + name) == Success(ToLower(name))
  {
    assert ("-" + name)[1..] == name;
    assert ("--" + name)[2..] == name;
  }

  /** A key that does not start with a hyphen is always refused. */
  lemma KeyWithoutHyphenRejected(key: string)
    requires |key| == 0 || key[0] != '-'
    ensures NormaliseKey(key) == Failure("Invalid Option Format, Should start with -- or -")
  {
  }

  /** The flag a normalised name selects, if any (`FlagNames` lists which
      name selects which). Every name the switch knows starts with a
      lower-case letter and holds only lower-case letters and hyphens, so it
      can be reached from keys in any case. */
  function FlagOf(name: string): (f: Option<Flag>)
    ensures f.Some? ==> |name| > 0 && 'a' <= name[0] <= 'z'
    ensures f.Some? ==> forall i :: 0 <= i < |name| ==> 'a' <= name[i] <= 'z' || name[i] == '-'
  {
    if name == "h" || name == "host" then Some(HostFlag)
    else if name == "p" || name == "port" then Some(PortFlag)
    else if name == "d" || name == "days-before" then Some(DaysFlag)
    else if name == "t" || name == "transport" then Some(TransportFlag)
    else if name == "email-from" then Some(EmailFromFlag)
    else if name == "emails-to" then Some(EmailsToFlag)
    else if name == "mailgun-domain" then Some(DomainFlag)
    else if name == "mailgun-apikey" then Some(ApiKeyFlag)
    else None
  }

  /** Flag names are matched without regard to ASCII case: a key spelled
      with any of its letters capitalised selects the flag its lower-case
      spelling names, after one hyphen, and after two for names of two or
      more characters. */
  lemma FlagCaseInsensitive(key: string, name: string, value: string)
    requires FlagOf(name).Some?
    requires |key| == |name| && forall i :: 0 <= i < |key| ==> CaseVariant(key[i], name[i])
    ensures ChunkFlag(["-" + key, value]) == FlagOf(name)
    ensures |name| >= 2 ==> ChunkFlag(["--" + key, value]) == FlagOf(name)
  {
    ToLowerOfCaseVariant(key, name);
    assert CaseVariant(key[0], name[0]) && IsAsciiLetter(key[0]);
    var short := "-" + key;
    assert short[1..] == key && short[1] == key[0];
    assert !IsLongKey(short) && IsShortKey(short);
    assert NormaliseKey(short) == Success(name);
    if |name| >= 2 {
      var long := "--" + key;
      assert long[2..] == key && long[2] == key[0] && long[3] == key[1];
      assert CaseVariant(key[1], name[1]) && IsFlagChar(key[1]);
      assert NormaliseKey(long) == Success(name);
    }
  }

  /** Which name selects which option: each option has its long name, and
      host, port, threshold and transport a one-letter name too. */
  lemma FlagNames(name: string)
    ensures FlagOf(name) == Some(HostFlag) <==> name == "h" || name == "host"
    ensures FlagOf(name) == Some(PortFlag) <==> name == "p" || name == "port"
    ensures FlagOf(name) == Some(DaysFlag) <==> name == "d" || name == "days-before"
    ensures FlagOf(name) == Some(TransportFlag) <==> name == "t" || name == "transport"
    ensures FlagOf(name) == Some(EmailFromFlag) <==> name == "email-from"
    ensures FlagOf(name) == Some(EmailsToFlag) <==> name == "emails-to"
    ensures FlagOf(name) == Some(DomainFlag) <==> name == "mailgun-domain"
    ensures FlagOf(name) == Some(ApiKeyFlag) <==> name == "mailgun-apikey"
  {
  }

  /** `-d`/`--days-before` sets the threshold and is refused exactly when
      its value is not a positive number. */
  lemma DaysKeyAppliesThreshold(key: string, value: string, o: CliOptions)
    requires key == "-d" || key == "--days-before"
    ensures CheckOption([key, value], o).Success? <==> NumberValue(value) > 0
    ensures CheckOption([key, value], o).Failure? ==>
      CheckOption([key, value], o) == Failure("Days to Alert Before Expiry should be Positive Number")
    ensures CheckOption([key, value], o).Success? ==>
      CheckOption([key, value], o) == Success(o.(alertDaysBeforeExpiry := NumberValue(value)))
  {
    var name := if key == "-d" then "d" else "days-before";
    if key == "-d" {
      assert key[1..] == name;
    } else {
      assert key[2..] == name;
    }
    ToLowerOfCaseVariant(name, name);
    assert NormaliseKey(key) == Success(name);
    assert ChunkFlag([key, value]) == Some(DaysFlag);
  }

  /** `-p`/`--port` stores the parsed port, 0 for a non-number, and is never
      refused. */
  lemma PortKeyAppliesPort(key: string, value: string, o: CliOptions)
    requires key == "-p" || key == "--port"
    ensures CheckOption([key, value], o) == Success(o.(port := NumberValue(value)))
  {
    var name := if key == "-p" then "p" else "port";
    if key == "-p" {
      assert key[1..] == name;
    } else {
      assert key[2..] == name;
    }
    ToLowerOfCaseVariant(name, name);
    assert NormaliseKey(key) == Success(name);
    assert ChunkFlag([key, value]) == Some(PortFlag);
  }

  /** The recipients of `--emails-to`: the value cut at every comma. The list
      is never empty and joining it with commas gives the value back. */
  function EmailsToList(value: string): (list: seq<string>)
    ensures list == Split(value, ',')
    ensures |list| > 0
    ensures Join(list, ',') == value
  {
    JoinSplit(value, ',');
    if ',' in value then Split(value, ',')
    else
      SplitWithoutSeparator(value, ',');
      [value]
  }

  /** A `-p` or `-d` value as parsed: the number, 0 for a non-number. */
  function NumberValue(value: string): int {
    ParseInt(value).GetOr(0)
  }

  /** Applies one flag. Only `-d` can fail, on a value that is not a number
      or not positive; `-p` stores the parsed number (0 for a non-number) and
      is never refused. Exactly the selected field changes. */
  function ApplyFlag(flag: Flag, value: string, o: CliOptions): (r: Result<CliOptions>)
    ensures r.Failure? <==> flag == DaysFlag && NumberValue(value) <= 0
    ensures r.Failure? ==> r.error == "Days to Alert Before Expiry should be Positive Number"
    ensures r.Success? ==>
      var n := r.value;
      var t := r.value.alertTransport;
      && n.host == (if flag == HostFlag then value else o.host)
      && n.port == (if flag == PortFlag then NumberValue(value) else o.port)
      && n.alertDaysBeforeExpiry == (if flag == DaysFlag then NumberValue(value) else o.alertDaysBeforeExpiry)
      && t.name == (if flag == TransportFlag then Some(value) else o.alertTransport.name)
      && t.emailFrom == (if flag == EmailFromFlag then Some(value) else o.alertTransport.emailFrom)
      && t.emailsTo == (if flag == EmailsToFlag then Some(EmailsToList(value)) else o.alertTransport.emailsTo)
      && t.domain == (if flag == DomainFlag then Some(value) else o.alertTransport.domain)
      && t.apiKey == (if flag == ApiKeyFlag then Some(value) else o.alertTransport.apiKey)
  {
    var t := o.alertTransport;
    match flag
    case HostFlag => Success(o.(host := value))
    case PortFlag =>
      var port := NumberValue(value);
      if Config.PortRejected(port) then Failure("Invalid Port Number")
      else Success(o.(port := port))
    case DaysFlag =>
      var days := NumberValue(value);
      if days <= 0 then Failure("Days to Alert Before Expiry should be Positive Number")
      else Success(o.(alertDaysBeforeExpiry := days))
    case TransportFlag => Success(o.(alertTransport := t.(name := Some(value))))
    case EmailFromFlag => Success(o.(alertTransport := t.(emailFrom := Some(value))))
    case EmailsToFlag => Success(o.(alertTransport := t.(emailsTo := Some(EmailsToList(value)))))
    case DomainFlag => Success(o.(alertTransport := t.(domain := Some(value))))
    case ApiKeyFlag => Success(o.(alertTransport := t.(apiKey := Some(value))))
  }

  /** The flag a chunk selects, when it is a well-formed pair with a known
      flag. */
  function ChunkFlag(chunk: seq<string>): Option<Flag> {
    if |chunk| == 2 && NormaliseKey(chunk[0]).Success? then FlagOf(NormaliseKey(chunk[0]).value)
    else None
  }

  /** A chunk `checkOption` accepts, whatever the options so far: a pair
      whose key names a known flag, with a positive number for `-d`. */
  predicate ChunkAccepted(chunk: seq<string>) {
    && |chunk| == 2
    && ChunkFlag(chunk).Some?
    && (ChunkFlag(chunk).value == DaysFlag ==> NumberValue(chunk[1]) > 0)
  }

  /** The message a chunk that is not accepted is refused with. */
  function ChunkError(chunk: seq<string>): string {
    if |chunk| != 2 then "Argument passed to Command Line get Error."
    else if NormaliseKey(chunk[0]).Failure? then NormaliseKey(chunk[0]).error
    else if ChunkFlag(chunk).None? then "Invalid Option, Please check the above Argument Setup"
    else "Days to Alert Before Expiry should be Positive Number"
  }

  /** Applies one chunk: it must be a pair, its key must be well formed and
      must name a known flag, and then the flag is applied. Whether a chunk
      is refused, and with which message, does not depend on the options
      so far. */
  function CheckOption(chunk: seq<string>, o: CliOptions): (r: Result<CliOptions>)
    ensures |chunk| != 2 ==> r == Failure("Argument passed to Command Line get Error.")
    ensures |chunk| == 2 && NormaliseKey(chunk[0]).Failure? ==> r == Failure(NormaliseKey(chunk[0]).error)
    ensures |chunk| == 2 && NormaliseKey(chunk[0]).Success? && ChunkFlag(chunk).None? ==>
      r == Failure("Invalid Option, Please check the above Argument Setup")
    ensures |chunk| == 2 && ChunkFlag(chunk).Some? ==> r == ApplyFlag(ChunkFlag(chunk).value, chunk[1], o)
    ensures r.Success? ==> ChunkFlag(chunk).Some? && r == ApplyFlag(ChunkFlag(chunk).value, chunk[1], o)
    ensures r.Success? <==> ChunkAccepted(chunk)
    ensures r.Failure? ==> r.error == ChunkError(chunk)
  {
    if |chunk| != 2 then Failure("Argument passed to Command Line get Error.")
    else
      var name :- NormaliseKey(chunk[0]);
      match FlagOf(name)
      case None => Failure("Invalid Option, Please check the above Argument Setup")
      case Some(flag) => ApplyFlag(flag, chunk[1], o)
  }

  /** The index of the first chunk that is not accepted, if there is one. */
  function FirstRejected(cs: seq<seq<string>>): (r: Option<nat>)
    ensures r.None? <==> forall k :: 0 <= k < |cs| ==> ChunkAccepted(cs[k])
    ensures r.Some? ==>
      && r.value < |cs|
      && !ChunkAccepted(cs[r.value])
      && forall j :: 0 <= j < r.value ==> ChunkAccepted(cs[j])
    decreases |cs|
  {
    if |cs| == 0 then None
    else if !ChunkAccepted(cs[0]) then Some(0)
    else
      match FirstRejected(cs[1..])
      case None => None
      case Some(k) => Some(k + 1)
  }

  /** Applies the chunks left to right, stopping at the first failure. The
      run succeeds exactly when every chunk is accepted; otherwise it fails
      with the message of the first chunk that is not. */
  function CheckOptions(cs: seq<seq<string>>, o: CliOptions): (r: Result<CliOptions>)
    ensures r.Success? <==> FirstRejected(cs).None?
    ensures r.Failure? ==> FirstRejected(cs).Some? && r.error == ChunkError(cs[FirstRejected(cs).value])
    decreases |cs|
  {
    if |cs| == 0 then Success(o)
    else
      var o' :- CheckOption(cs[0], o);
      CheckOptions(cs[1..], o')
  }

  // ---------------------------------------------------------------------
  // Last write wins
  // ---------------------------------------------------------------------

  /** The value of the last chunk that sets `flag`, if any does. */
  function LastSetting(cs: seq<seq<string>>, flag: Flag): Option<string>
    decreases |cs|
  {
    if |cs| == 0 then None
    else
      var later := LastSetting(cs[1..], flag);
      if later.Some? then later
      else if ChunkFlag(cs[0]) == Some(flag) then Some(cs[0][1])
      else None
  }

  /** The setting when a flag made one, `start` otherwise. */
  function Latest<T>(setting: Option<T>, start: T): T {
    if setting.Some? then setting.value else start
  }

  function LatestOpt<T>(setting: Option<T>, start: Option<T>): Option<T> {
    if setting.Some? then setting else start
  }

  function MapOpt<T, U>(o: Option<T>, f: T -> U): Option<U> {
    if o.Some? then Some(f(o.value)) else None
  }

  /** Every field of the options the chunks produce is the value of the last
      flag that set it, or its starting value when no flag did. */
  predicate LastWriteWins(cs: seq<seq<string>>, o: CliOptions, n: CliOptions) {
    var t := n.alertTransport;
    && n.host == Latest(LastSetting(cs, HostFlag), o.host)
    && n.port == Latest(MapOpt(LastSetting(cs, PortFlag), NumberValue), o.port)
    && n.alertDaysBeforeExpiry == Latest(MapOpt(LastSetting(cs, DaysFlag), NumberValue), o.alertDaysBeforeExpiry)
    && t.name == LatestOpt(LastSetting(cs, TransportFlag), o.alertTransport.name)
    && t.emailFrom == LatestOpt(LastSetting(cs, EmailFromFlag), o.alertTransport.emailFrom)
    && t.emailsTo == LatestOpt(MapOpt(LastSetting(cs, EmailsToFlag), EmailsToList), o.alertTransport.emailsTo)
    && t.domain == LatestOpt(LastSetting(cs, DomainFlag), o.alertTransport.domain)
    && t.apiKey == LatestOpt(LastSetting(cs, ApiKeyFlag), o.alertTransport.apiKey)
  }

  /** Options are applied left to right and the last write wins. */
  lemma {:induction false} CheckOptionsLastWriteWins(cs: seq<seq<string>>, o: CliOptions)
    requires CheckOptions(cs, o).Success?
    ensures LastWriteWins(cs, o, CheckOptions(cs, o).value)
    decreases |cs|
  {
    if |cs| > 0 {
      var o' := CheckOption(cs[0], o).value;
      CheckOptionsLastWriteWins(cs[1..], o');
      LastWriteWinsStep(cs, o, o', CheckOptions(cs, o).value);
    }
  }

  /** One chunk in front of a run: its setting counts unless a later chunk
      overrides it. */
  lemma LastWriteWinsStep(cs: seq<seq<string>>, o: CliOptions, o': CliOptions, n: CliOptions)
    requires |cs| > 0
    requires CheckOption(cs[0], o) == Success(o')
    requires LastWriteWins(cs[1..], o', n)
    ensures LastWriteWins(cs, o, n)
  {
    var flag := ChunkFlag(cs[0]).value;
    var v := cs[0][1];
    assert Success(o') == ApplyFlag(flag, v, o);
    forall f: Flag
      ensures LastSetting(cs, f) == LatestOpt(LastSetting(cs[1..], f), if flag == f then Some(v) else None)
    {
    }
  }

  /** Applying flags keeps the threshold positive. */
  lemma {:induction false} CheckOptionsKeepDaysPositive(cs: seq<seq<string>>, o: CliOptions)
    requires o.alertDaysBeforeExpiry >= 1
    requires CheckOptions(cs, o).Success?
    ensures CheckOptions(cs, o).value.alertDaysBeforeExpiry >= 1
    decreases |cs|
  {
    if |cs| > 0 {
      CheckOptionsKeepDaysPositive(cs[1..], CheckOption(cs[0], o).value);
    }
  }

  /** A final chunk of one element makes the whole run fail, and when every
      pair before it is accepted the failure is the argument-count error. */
  lemma {:induction false} TrailingSingleRejected(cs: seq<seq<string>>, o: CliOptions)
    requires |cs| > 0 && |cs[|cs| - 1]| == 1
    ensures CheckOptions(cs, o).Failure?
    ensures CheckOptions(cs[..|cs| - 1], o).Success? ==>
      CheckOptions(cs, o) == Failure("Argument passed to Command Line get Error.")
  {
    var last := |cs| - 1;
    assert !ChunkAccepted(cs[last]);
    var first := FirstRejected(cs);
    assert first.Some?;
    if CheckOptions(cs[..last], o).Success? {
      forall j | 0 <= j < last ensures ChunkAccepted(cs[j]) {
        assert cs[..last][j] == cs[j];
      }
      assert !ChunkAccepted(cs[first.value]);
      assert first.value == last;
    }
  }

  // ---------------------------------------------------------------------
  // checkTransport and parseOptions
  // ---------------------------------------------------------------------

  /** With no transport name the options pass. For 'mailgun' the sender,
      the recipients, the domain and the API key must be present, checked in
      that order. Any other name is refused. */
  function CheckTransport(o: CliOptions): (r: Result<CliOptions>)
    ensures r.Success? ==> r.value == o
    ensures r.Success? <==>
      var t := o.alertTransport;
      t.name.None? ||
      (t.name == Some("mailgun") && t.emailFrom.Some? && t.emailsTo.Some? && t.domain.Some? && t.apiKey.Some?)
    ensures o.alertTransport.name.Some? && o.alertTransport.name.value != "mailgun" ==>
      r == Failure("Alert Transport you Entered was not Supported")
    ensures o.alertTransport.name == Some("mailgun") ==>
      var t := o.alertTransport;
      if t.emailFrom.None? then r == Failure("Email From was not defined for Mailgun")
      else if t.emailsTo.None? then r == Failure("Emails To was not defined for Mailgun")
      else if t.domain.None? then r == Failure("Domain was not defined for Mailgun")
      else if t.apiKey.None? then r == Failure("Api Key was not defined for Mailgun")
      else r == Success(o)
  {
    var t := o.alertTransport;
    if t.name.None? then Success(o)
    else if t.name.value == "mailgun" then
      if t.emailFrom.None? then Failure("Email From was not defined for Mailgun")
      else if t.emailsTo.None? then Failure("Emails To was not defined for Mailgun")
      else if t.domain.None? then Failure("Domain was not defined for Mailgun")
      else if t.apiKey.None? then Failure("Api Key was not defined for Mailgun")
      else Success(o)
    else Failure("Alert Transport you Entered was not Supported")
  }

  /** Parses argv. An empty argv and an odd number of arguments fail; an
      accepted result has every field set by its last flag (or left at its
      default), a positive threshold and a complete, supported transport. */
  function ParseOptions(args: seq<string>): (r: Result<CliOptions>)
    ensures |args| == 0 ==> r == Failure("No Argument Found.")
    ensures |args| % 2 == 1 ==> r.Failure?
    ensures |args| > 0 && CheckOptions(Chunks(args), DefaultOptions).Failure? ==>
      r == Failure(CheckOptions(Chunks(args), DefaultOptions).error)
    ensures |args| > 0 && CheckOptions(Chunks(args), DefaultOptions).Success? ==>
      r == CheckTransport(CheckOptions(Chunks(args), DefaultOptions).value)
    ensures |args| > 0 ==>
      (r.Success? <==> CheckOptions(Chunks(args), DefaultOptions).Success?
                       && CheckTransport(CheckOptions(Chunks(args), DefaultOptions).value).Success?)
    ensures |args| % 2 == 1 && (forall k :: 0 <= k < |args| / 2 ==> ChunkAccepted(Chunks(args)[k])) ==>
      r == Failure("Argument passed to Command Line get Error.")
    ensures r.Success? ==>
      && LastWriteWins(Chunks(args), DefaultOptions, r.value)
      && r.value.alertDaysBeforeExpiry >= 1
      && CheckTransport(r.value) == Success(r.value)
  {
    if |args| == 0 then Failure("No Argument Found.")
    else
      var cs := Chunks(args);
      OddCountRejected(args);
      var o :- CheckOptions(cs, DefaultOptions);
      CheckOptionsLastWriteWins(cs, DefaultOptions);
      CheckOptionsKeepDaysPositive(cs, DefaultOptions);
      CheckTransport(o)
  }

  /** An odd number of arguments leaves a one-element last chunk, so the run
      fails; with every pair before it accepted, it fails with the
      argument-count error. */
  lemma OddCountRejected(args: seq<string>)
    ensures |args| % 2 == 1 ==> CheckOptions(Chunks(args), DefaultOptions).Failure?
    ensures |args| % 2 == 1 && (forall k :: 0 <= k < |args| / 2 ==> ChunkAccepted(Chunks(args)[k])) ==>
      CheckOptions(Chunks(args), DefaultOptions) == Failure("Argument passed to Command Line get Error.")
  {
    if |args| % 2 == 1 {
      var cs := Chunks(args);
      var n := |cs| - 1;
      assert n == |args| / 2 && |cs[n]| == 1;
      TrailingSingleRejected(cs, DefaultOptions);
      if forall k :: 0 <= k < n ==> ChunkAccepted(cs[k]) {
        PrefixAccepted(cs, n, DefaultOptions);
      }
    }
  }

  /** A run whose first `n` chunks are all accepted succeeds on those
      chunks. */
  lemma PrefixAccepted(cs: seq<seq<string>>, n: nat, o: CliOptions)
    requires n <= |cs|
    requires forall k :: 0 <= k < n ==> ChunkAccepted(cs[k])
    ensures CheckOptions(cs[..n], o).Success?
  {
    var prefix := cs[..n];
    forall k | 0 <= k < |prefix| ensures ChunkAccepted(prefix[k]) {
      assert prefix[k] == cs[k];
    }
  }

  // ---------------------------------------------------------------------
  // Hand-over to the library
  // ---------------------------------------------------------------------

  /** The options object the command line passes to the library: host, port
      and threshold as set, no server name or timeout, and the transport
      object (always present, possibly without a name). What the library
      reads back from it is what the command line stored. */
  function ToLibraryOptions(o: CliOptions): (r: Config.RawOptions)
    ensures r.host == Some(o.host)
    ensures r.port.Some? && ParseIntValue(r.port.value) == Some(o.port)
    ensures r.alertDaysBeforeExpiry.Some? && ParseIntValue(r.alertDaysBeforeExpiry.value) == Some(o.alertDaysBeforeExpiry)
    ensures r.servername.None? && r.timeout.None?
    ensures r.alertTransport.Some?
    ensures var t := r.alertTransport.value;
      && t.name == o.alertTransport.name
      && t.emailFrom == o.alertTransport.emailFrom
      && t.domain == o.alertTransport.domain
      && t.apiKey == o.alertTransport.apiKey
      && t.emailFromName.None?
      && (t.emailsTo.Some? <==> o.alertTransport.emailsTo.Some?)
      && (t.emailsTo.Some? ==> Config.RecipientList(t.emailsTo.value) == o.alertTransport.emailsTo.value)
  {
    ParseIntOfNumber(o.port);
    ParseIntOfNumber(o.alertDaysBeforeExpiry);
    var t := o.alertTransport;
    Config.RawOptions(
      Some(o.host), Some(Number(o.port)), None, None, Some(Number(o.alertDaysBeforeExpiry)),
      Some(Config.RawTransport(t.name, t.domain, t.apiKey, t.emailFrom, None,
                               MapOpt(t.emailsTo, (l: seq<string>) => Config.Many(l)))))
  }

  /** A run that only names the host, in either spelling of the flag, is
      accepted and leaves every other option at its default. */
  lemma HostOnlyAccepted(host: string)
    ensures ParseOptions(["--host", host]) == Success(DefaultOptions.(host := host))
    ensures ParseOptions(["-h", host]) == Success(DefaultOptions.(host := host))
  {
    HostPairAccepted("--host", "host", host);
    HostPairAccepted("-h", "h", host);
  }

  lemma HostPairAccepted(key: string, name: string, host: string)
    requires key == "-" + name || key == "--" + name
    requires name == "h" || name == "host"
    requires |name| == 1 ==> key == "-" + name
    ensures ParseOptions([key, host]) == Success(DefaultOptions.(host := host))
  {
    var args := [key, host];
    assert args[..2] == args && args[2..] == [];
    assert Chunks(args) == [args];
    assert forall i :: 0 <= i < |name| ==> CaseVariant(name[i], name[i]);
    FlagCaseInsensitive(name, name, host);
    assert ChunkFlag(args) == Some(HostFlag);
    var o := DefaultOptions.(host := host);
    assert CheckOption(args, DefaultOptions) == Success(o);
    var cs := Chunks(args);
    assert cs[1..] == [];
    assert CheckOptions(cs, DefaultOptions) == Success(o);
  }

  /** The two layers disagree on unknown transport names: the command line
      refuses them, the library ignores them and runs without alerting. */
  lemma UnknownTransportDivergence(o: CliOptions, isEmail: string -> bool)
    requires o.alertTransport.name.Some? && o.alertTransport.name.value != "mailgun"
    ensures CheckTransport(o) == Failure("Alert Transport you Entered was not Supported")
    ensures Config.GetAlertTransport(ToLibraryOptions(o).alertTransport, isEmail) == Success(None)
  {
  }

  /** The library never clamps a threshold the command line accepted: it
      arrives unchanged. */
  lemma ThresholdReachesLibraryUnchanged(args: seq<string>)
    requires ParseOptions(args).Success?
    ensures var o := ParseOptions(args).value;
            Config.GetAlertDaysBeforeExpiry(ToLibraryOptions(o).alertDaysBeforeExpiry) == o.alertDaysBeforeExpiry
  {
    Config.AlertDaysOfNumber(ParseOptions(args).value.alertDaysBeforeExpiry);
  }

  /** The port the command line stores is the port the library connects to,
      whenever the library accepts the host. */
  lemma PortReachesLibraryUnchanged(o: CliOptions)
    requires Config.GetTlsOptions(ToLibraryOptions(o)).Success?
    ensures Config.GetTlsOptions(ToLibraryOptions(o)).value.port == o.port
  {
  }

  /** Without `-h`/`--host` the command line still accepts the arguments, but
      the library then refuses the default empty host. */
  lemma MissingHostRejectedByLibrary(args: seq<string>)
    requires ParseOptions(args).Success?
    requires LastSetting(Chunks(args), HostFlag).None?
    ensures Config.GetTlsOptions(ToLibraryOptions(ParseOptions(args).value)) == Failure("Host cannot be Empty")
  {
  }

  /** A Mailgun transport the command line accepted has every field the
      library asks for and at least one recipient, so the library accepts it
      exactly when the sender and every recipient are valid addresses. */
  lemma MailgunFromCommandLineAcceptedIff(args: seq<string>, isEmail: string -> bool)
    requires ParseOptions(args).Success?
    requires ParseOptions(args).value.alertTransport.name == Some("mailgun")
    ensures var t := ParseOptions(args).value.alertTransport;
            var r := Config.GetAlertTransport(ToLibraryOptions(ParseOptions(args).value).alertTransport, isEmail);
            (r.Success? && r.value.Some?) <==>
              isEmail(t.emailFrom.value) && forall k :: 0 <= k < |t.emailsTo.value| ==> isEmail(t.emailsTo.value[k])
  {
    var o := ParseOptions(args).value;
    var raw := ToLibraryOptions(o).alertTransport;
    Config.TransportAcceptedIff(raw, isEmail);
    assert Config.RecipientList(raw.value.emailsTo.value) == o.alertTransport.emailsTo.value;
    // The recipients came from `--emails-to`, so there is at least one.
    CheckOptionsLastWriteWins(Chunks(args), DefaultOptions);
  }
}

=== FILE: config.dfy ===
/** Option validation and defaulting done by the library before any network
    activity: the TLS connection options, the alert transport and the alert
    threshold. Each validator either settles on a normalised value or fails
    with the library's error message. */
module Config {
  import opened Wrappers
  import opened JsRuntime

  /** The options object a caller hands to the library. A field JavaScript
      would read as `undefined` is `None`. */
  datatype RawOptions = RawOptions(
    host: Option<string>,
    port: Option<JsValue>,
    servername: Option<string>,
    timeout: Option<JsValue>,
    alertDaysBeforeExpiry: Option<JsValue>,
    alertTransport: Option<RawTransport>)

  /** `emailsTo` may be given as one address or as an array of addresses. */
  datatype Recipients = One(address: string) | Many(addresses: seq<string>)

  /** The `alertTransport` sub-object as the caller wrote it. */
  datatype RawTransport = RawTransport(
    name: Option<string>,
    domain: Option<string>,
    apiKey: Option<string>,
    emailFrom: Option<string>,
    emailFromName: Option<string>,
    emailsTo: Option<Recipients>)

  /** The options the TLS connection is opened with. */
  datatype TlsOptions = TlsOptions(host: string, port: int, servername: string, timeout: JsValue)

  /** A validated alert transport; Mailgun is the only kind there is. */
  datatype Transport = Mailgun(
    domain: string,
    apiKey: string,
    emailFrom: string,
    emailFromName: string,
    emailsTo: seq<string>)

  const DefaultPort: int := 443
  const DefaultTimeout: int := 10
  const DefaultAlertDays: int := 30

  // ---------------------------------------------------------------------
  // getTlsOptions
  // ---------------------------------------------------------------------

  /** The library's port range test, written as it stands: a port would have
      to be both at most 0 and above 65535 to be refused. */
  predicate PortRejected(port: int) {
    port <= 0 && port > 65535
  }

  /** No port whatsoever is refused by the range test. */
  lemma PortNeverRejected(port: int)
    ensures !PortRejected(port)
  {
  }

  /** Validates the host and fills in port, server name and timeout.
      An absent host and a blank host are the only failures: the port,
      parsed with a non-numeric value mapped to 0, is never refused. */
  function GetTlsOptions(options: RawOptions): (r: Result<TlsOptions>)
    ensures options.host.None? ==> r == Failure("Missing Host")
    ensures options.host.Some? && IsBlank(options.host.value) ==> r == Failure("Host cannot be Empty")
    ensures options.host.Some? && !IsBlank(options.host.value) ==>
      && r.Success?
      && r.value.host == options.host.value
      && r.value.servername == options.servername.GetOr(options.host.value)
      && r.value.timeout == options.timeout.GetOr(Number(DefaultTimeout))
    ensures r.Success? ==>
      && (options.port.None? ==> r.value.port == DefaultPort)
      && (options.port.Some? && options.port.value.Number? ==> r.value.port == options.port.value.number)
      && (options.port.Some? && ParseIntValue(options.port.value).None? ==> r.value.port == 0)
      && (options.port.Some? ==> r.value.port == ParseIntValue(options.port.value).GetOr(0))
  {
    if options.host.None? then Failure("Missing Host")
    else if IsBlank(options.host.value) then Failure("Host cannot be Empty")
    else
      var host := options.host.value;
      var raw := options.port.GetOr(Number(DefaultPort));
      ParseIntOfNumber(if raw.Number? then raw.number else DefaultPort);
      var port := ParseIntValue(raw).GetOr(0);
      if PortRejected(port) then Failure("Invalid Port Number")
      else Success(TlsOptions(host, port, options.servername.GetOr(host), options.timeout.GetOr(Number(DefaultTimeout))))
  }

  // ---------------------------------------------------------------------
  // getAlertTransport
  // ---------------------------------------------------------------------

  /** `emailsTo` as an array: a single address becomes a one-element list. */
  function RecipientList(recipients: Recipients): (list: seq<string>)
    ensures recipients.One? ==> list == [recipients.address]
    ensures recipients.Many? ==> list == recipients.addresses
  {
    match recipients
    case One(a) => [a]
    case Many(addresses) => addresses
  }

  /** The index of the first address `isEmail` refuses, if there is one. */
  function FirstInvalid(addresses: seq<string>, isEmail: string -> bool): (r: Option<nat>)
    ensures r.None? <==> forall k :: 0 <= k < |addresses| ==> isEmail(addresses[k])
    ensures r.Some? ==>
      && r.value < |addresses|
      && !isEmail(addresses[r.value])
      && forall k :: 0 <= k < r.value ==> isEmail(addresses[k])
    decreases |addresses|
  {
    if |addresses| == 0 then None
    else if !isEmail(addresses[0]) then Some(0)
    else
      match FirstInvalid(addresses[1..], isEmail)
      case None => None
      case Some(k) => Some(k + 1)
  }

  /** The first invalid address is the only one with no invalid address
      before it. */
  lemma FirstInvalidIsUnique(addresses: seq<string>, isEmail: string -> bool, i: nat)
    requires i < |addresses| && !isEmail(addresses[i])
    requires forall j :: 0 <= j < i ==> isEmail(addresses[j])
    ensures FirstInvalid(addresses, isEmail) == Some(i)
  {
  }

  /** What a usable Mailgun transport is, independent of the order in which
      the library checks it: every field present, the sender and every
      recipient accepted by `isEmail`, at least one recipient. */
  predicate AcceptableMailgun(t: RawTransport, isEmail: string -> bool) {
    && t.name == Some("mailgun")
    && t.domain.Some?
    && t.apiKey.Some?
    && t.emailFrom.Some? && isEmail(t.emailFrom.value)
    && t.emailsTo.Some?
    && |RecipientList(t.emailsTo.value)| > 0
    && forall k :: 0 <= k < |RecipientList(t.emailsTo.value)| ==> isEmail(RecipientList(t.emailsTo.value)[k])
  }

  /** Validates the alert transport. No transport, no name or a name other
      than 'mailgun' silently means "no alert" (`None`). For 'mailgun' the
      fields are checked in a fixed order and the first failing check names
      the field; an invalid recipient is named in the message. */
  function GetAlertTransport(transport: Option<RawTransport>, isEmail: string -> bool): (r: Result<Option<Transport>>)
    ensures transport.None? || transport.value.name.None? || transport.value.name.value != "mailgun" ==>
      r == Success(None)
    ensures transport.Some? && transport.value.name == Some("mailgun") ==>
      var t := transport.value;
      if t.domain.None? then r == Failure("Missing Alert Transport Mailgun Domain")
      else if t.apiKey.None? then r == Failure("Missing Alert Transport Mailgun API Key")
      else if t.emailFrom.None? then r == Failure("Missing Alert Transport Email From")
      else if !isEmail(t.emailFrom.value) then r == Failure("Invalid Alert Transport Email From")
      else if t.emailsTo.None? then r == Failure("Missing Alert Transport Mailgun Emails To")
      else if |RecipientList(t.emailsTo.value)| == 0 then r == Failure("Invalid Alert Transport Emails To cannot be Empty")
      else
        var list := RecipientList(t.emailsTo.value);
        r.Failure? ==>
          exists k :: 0 <= k < |list| && r.error == "Invalid Alert Transport Email To, " + list[k]
            && !isEmail(list[k]) && forall j :: 0 <= j < k ==> isEmail(list[j])
    ensures r.Success? && r.value.Some? ==>
      var t := transport.value;
      && AcceptableMailgun(t, isEmail)
      && r.value.value == Mailgun(t.domain.value, t.apiKey.value, t.emailFrom.value,
                                  t.emailFromName.GetOr(""), RecipientList(t.emailsTo.value))
  {
    if transport.None? || transport.value.name.None? then Success(None)
    else
      var t := transport.value;
      if t.name.value == "mailgun" then
        if t.domain.None? then Failure("Missing Alert Transport Mailgun Domain")
        else if t.apiKey.None? then Failure("Missing Alert Transport Mailgun API Key")
        else if t.emailFrom.None? then Failure("Missing Alert Transport Email From")
        else if !isEmail(t.emailFrom.value) then Failure("Invalid Alert Transport Email From")
        else
          var name := t.emailFromName.GetOr("");
          if t.emailsTo.None? then Failure("Missing Alert Transport Mailgun Emails To")
          else
            var list := RecipientList(t.emailsTo.value);
            if |list| == 0 then Failure("Invalid Alert Transport Emails To cannot be Empty")
            else
              match FirstInvalid(list, isEmail)
              case Some(k) => Failure("Invalid Alert Transport Email To, " + list[k])
              case None => Success(Some(Mailgun(t.domain.value, t.apiKey.value, t.emailFrom.value, name, list)))
      else
        Success(None)
  }

  /** The order of the checks does not change WHICH transports are accepted:
      a transport is returned exactly when the raw one is an acceptable
      Mailgun transport. */
  lemma TransportAcceptedIff(transport: Option<RawTransport>, isEmail: string -> bool)
    ensures GetAlertTransport(transport, isEmail).Success? && GetAlertTransport(transport, isEmail).value.Some?
      <==> transport.Some? && AcceptableMailgun(transport.value, isEmail)
  {
    if transport.Some? && AcceptableMailgun(transport.value, isEmail) {
      var list := RecipientList(transport.value.emailsTo.value);
      assert FirstInvalid(list, isEmail).None?;
    }
  }

  /** A complete Mailgun transport with a valid sender is refused for its
      first invalid recipient, and that recipient is named. */
  lemma InvalidRecipientNamed(t: RawTransport, isEmail: string -> bool, i: nat)
    requires && t.name == Some("mailgun") && t.domain.Some? && t.apiKey.Some?
             && t.emailFrom.Some? && isEmail(t.emailFrom.value) && t.emailsTo.Some?
    requires var list := RecipientList(t.emailsTo.value);
             && i < |list| && !isEmail(list[i])
             && forall j :: 0 <= j < i ==> isEmail(list[j])
    ensures GetAlertTransport(Some(t), isEmail)
         == Failure("Invalid Alert Transport Email To, " + RecipientList(t.emailsTo.value)[i])
  {
    FirstInvalidIsUnique(RecipientList(t.emailsTo.value), isEmail, i);
  }

  // ---------------------------------------------------------------------
  // getAlertDaysBeforeExpiry
  // ---------------------------------------------------------------------

  /** The alert threshold in days: 30 when absent or not a number, at least
      1 (a parsed value of 0 or less becomes 1), otherwise the parsed value. */
  function GetAlertDaysBeforeExpiry(days: Option<JsValue>): (r: int)
    ensures r >= 1
    ensures days.None? ==> r == DefaultAlertDays
    ensures days.Some? && ParseIntValue(days.value).None? ==> r == DefaultAlertDays
    ensures days.Some? && ParseIntValue(days.value).Some? ==>
      var n := ParseIntValue(days.value).value;
      r == if n <= 0 then 1 else n
  {
    // An absent threshold is first set to 30, which `parseInt` reads back
    // as 30 (`ParseIntOfNumber`).
    var parsed := if days.None? then DefaultAlertDays else ParseIntValue(days.value).GetOr(DefaultAlertDays);
    if parsed <= 0 then 1 else parsed
  }

  /** The source sets an absent threshold to 30 and then parses it;
      `parseInt` reads 30 back, so taking 30 directly is the same. */
  lemma AbsentThresholdParsesToDefault()
    ensures ParseIntValue(Number(DefaultAlertDays)) == Some(DefaultAlertDays)
    ensures GetAlertDaysBeforeExpiry(None) == DefaultAlertDays
  {
    ParseIntOfNumber(DefaultAlertDays);
  }

  /** A numeric threshold passes through unchanged exactly when it is
      positive; otherwise it is clamped to 1. */
  lemma AlertDaysOfNumber(n: int)
    ensures GetAlertDaysBeforeExpiry(Some(Number(n))) == (if n >= 1 then n else 1)
    ensures GetAlertDaysBeforeExpiry(Some(Number(n))) == n <==> n >= 1
  {
    ParseIntOfNumber(n);
    var r := GetAlertDaysBeforeExpiry(Some(Number(n)));
    assert ParseIntValue(Number(n)) == Some(n);
    assert r == (if n >= 1 then n else 1);
  }
}

=== FILE: expiry.dfy ===
/** Expiry evaluation: from the certificate's validity window, the current
    time and the alert threshold, the number of days left and whether an
    alert is due. Times are integer milliseconds since the epoch. */
module Expiry {
  import opened Wrappers

  /** The part of the peer certificate that is looked at. A field the
      certificate object lacks is `None`. */
  datatype Certificate = Certificate(validFrom: Option<int>, validTo: Option<int>)

  /** `daysExpireRemains` is -1 for a certificate that has already expired. */
  datatype Evaluation = Evaluation(daysExpireRemains: int, expiryStatus: bool)

  const DayMs: nat := 1000 * 60 * 60 * 24

  const Expired: int := -1

  /** `Math.round(diff / DayMs)` for a non-negative difference: the nearest
      whole number of days, a half day rounding up. */
  function RoundDays(diff: nat): (days: nat)
    ensures days * DayMs <= diff + DayMs / 2 < (days + 1) * DayMs
  {
    (diff + DayMs / 2) / DayMs
  }

  function Abs(x: int): nat {
    if x < 0 then -x else x
  }

  /** Rounding picks a nearest whole number of days: no whole number of
      days is closer to the difference. */
  lemma RoundDaysIsNearest(diff: nat, k: int)
    ensures Abs(RoundDays(diff) * DayMs - diff) <= Abs(k * DayMs - diff)
  {
    var d := RoundDays(diff);
    if k < d {
      assert k * DayMs <= (d - 1) * DayMs;
    } else if k > d {
      assert k * DayMs >= (d + 1) * DayMs;
    }
  }

  /** A difference of exactly `n` days rounds to `n`. */
  lemma RoundWholeDays(n: nat)
    ensures RoundDays(n * DayMs) == n
  {
  }

  /** A larger time difference never rounds to fewer days. */
  lemma RoundDaysMonotone(a: nat, b: nat)
    requires a <= b
    ensures RoundDays(a) <= RoundDays(b)
  {
  }

  /** Evaluates a certificate against the threshold `alertDays` at time
      `now`. A certificate without both validity dates fails; one already
      past its end is reported as -1 days and always alerts; otherwise the
      rounded number of days left is reported and the alert is due exactly
      when the threshold reaches it, a tie included. */
  function ShouldAlertSslExpiry(cert: Certificate, now: int, alertDays: int): (r: Result<Evaluation>)
    ensures r.Failure? <==> cert.validFrom.None? || cert.validTo.None?
    ensures r.Failure? ==> r.error == "Invalid Peer Certificate"
    ensures r.Success? && now > cert.validTo.value ==> r.value == Evaluation(Expired, true)
    ensures r.Success? && now <= cert.validTo.value ==>
      var days := r.value.daysExpireRemains;
      && days >= 0
      && days * DayMs <= cert.validTo.value - now + DayMs / 2 < (days + 1) * DayMs
      && (r.value.expiryStatus <==> alertDays >= days)
    ensures r.Success? ==> r.value.daysExpireRemains >= Expired
  {
    if cert.validFrom.None? || cert.validTo.None? then Failure("Invalid Peer Certificate")
    else if now > cert.validTo.value then Success(Evaluation(Expired, true))
    else
      var days := RoundDays(cert.validTo.value - now);
      Success(Evaluation(days, alertDays >= days))
  }

  /** Raising the threshold never turns an alert off. */
  lemma ThresholdMonotone(cert: Certificate, now: int, t1: int, t2: int)
    requires t1 <= t2
    requires ShouldAlertSslExpiry(cert, now, t1).Success?
    ensures ShouldAlertSslExpiry(cert, now, t2).Success?
    ensures ShouldAlertSslExpiry(cert, now, t1).value.daysExpireRemains
         == ShouldAlertSslExpiry(cert, now, t2).value.daysExpireRemains
    ensures ShouldAlertSslExpiry(cert, now, t1).value.expiryStatus
        ==> ShouldAlertSslExpiry(cert, now, t2).value.expiryStatus
  {
  }

  /** A certificate expiring later never has fewer days left, and an alert
      for it implies an alert for any certificate expiring earlier (but not
      yet expired). */
  lemma LaterExpiryAlertsLess(from: int, to1: int, to2: int, now: int, alertDays: int)
    requires now <= to1 <= to2
    ensures var e1 := ShouldAlertSslExpiry(Certificate(Some(from), Some(to1)), now, alertDays).value;
            var e2 := ShouldAlertSslExpiry(Certificate(Some(from), Some(to2)), now, alertDays).value;
            e1.daysExpireRemains <= e2.daysExpireRemains && (e2.expiryStatus ==> e1.expiryStatus)
  {
    RoundDaysMonotone(to1 - now, to2 - now);
  }

  /** A certificate expiring in exactly `t` days is reported with `t` days
      left and alerts under a threshold of `t`: the boundary is inclusive. */
  lemma TieAlerts(from: int, now: int, t: nat)
    ensures ShouldAlertSslExpiry(Certificate(Some(from), Some(now + t * DayMs)), now, t)
         == Success(Evaluation(t, true))
  {
    RoundWholeDays(t);
  }

  /** A certificate expiring in `n` whole days, more than the threshold, does
      not alert. */
  lemma FarExpiryDoesNotAlert(from: int, now: int, n: nat, t: int)
    requires n > t
    ensures ShouldAlertSslExpiry(Certificate(Some(from), Some(now + n * DayMs)), now, t)
         == Success(Evaluation(n, false))
  {
    RoundWholeDays(n);
  }
}

=== FILE: js_runtime.dfy ===
/** The few pieces of JavaScript's built-in behaviour that the option
    validators depend on, written out exactly:
    - `String.prototype.trim` and the white-space set it shares with `parseInt`,
    - `parseInt(x, 10)`, with `None` standing for `NaN`,
    - `String.prototype.toLowerCase` as far as the flag switch can observe it,
    - `String.prototype.split(',')`, with `join(',')` as its inverse, which
      the program never calls and which serves only to state the
      round-trip,
    - the decimal rendering of an integer (`String(n)`, `util.format('%d', n)`).
 */
module JsRuntime {
  import opened Wrappers

  /** A raw option value as a caller may pass it: a string, or an integer
      number. */
  datatype JsValue = Text(text: string) | Number(number: int)

  // ---------------------------------------------------------------------
  // White space and trimming
  // ---------------------------------------------------------------------

  /** JavaScript's white space and line terminators (the characters `trim`
      removes and `parseInt` skips). */
  predicate IsWhiteSpace(c: char) {
    || c == '\t' || c == '\n' || c == '\U{000B}' || c == '\U{000C}' || c == '\r'
    || c == ' ' || c == '\U{00A0}' || c == '\U{1680}'
    || ('\U{2000}' <= c <= '\U{200A}')
    || c == '\U{2028}' || c == '\U{2029}' || c == '\U{202F}' || c == '\U{205F}'
    || c == '\U{3000}' || c == '\U{FEFF}'
  }

  /** `s` with its leading white space removed. */
  function TrimStart(s: string): (r: string)
    ensures |r| <= |s| && r == s[|s| - |r|..]
    ensures forall i :: 0 <= i < |s| - |r| ==> IsWhiteSpace(s[i])
    ensures |r| > 0 ==> !IsWhiteSpace(r[0])
    decreases |s|
  {
    if |s| > 0 && IsWhiteSpace(s[0]) then TrimStart(s[1..]) else s
  }

  /** `s` with its trailing white space removed. */
  function TrimEnd(s: string): (r: string)
    ensures |r| <= |s| && r == s[..|r|]
    ensures forall i :: |r| <= i < |s| ==> IsWhiteSpace(s[i])
    ensures |r| > 0 ==> !IsWhiteSpace(r[|r| - 1])
    decreases |s|
  {
    if |s| > 0 && IsWhiteSpace(s[|s| - 1]) then TrimEnd(s[..|s| - 1]) else s
  }

  /** `r` is a contiguous piece of `s`. */
  predicate IsSliceOf(r: string, s: string) {
    exists i, j :: 0 <= i <= j <= |s| && r == s[i..j]
  }

  /** `s.trim()`: a contiguous slice of `s` that neither starts nor ends with
      white space, and that is empty exactly when `s` is all white space. */
  function Trim(s: string): (r: string)
    ensures IsSliceOf(r, s)
    ensures |r| > 0 ==> !IsWhiteSpace(r[0]) && !IsWhiteSpace(r[|r| - 1])
    ensures r == [] <==> forall i :: 0 <= i < |s| ==> IsWhiteSpace(s[i])
  {
    var t := TrimStart(s);
    var r := TrimEnd(t);
    assert IsSliceOf(r, s) by {
      assert r == s[|s| - |t|..|s| - |t| + |r|];
    }
    assert |r| > 0 ==> r[0] == t[0];
    assert |t| > 0 ==> !IsWhiteSpace(t[0]);
    assert (forall i :: 0 <= i < |s| ==> IsWhiteSpace(s[i])) ==> t == [] by {
      if |t| > 0 {
        assert t[0] == s[|s| - |t|];
      }
    }
    r
  }

  /** The source's test `s.trim() == ''`. */
  predicate IsBlank(s: string) {
    Trim(s) == []
  }

  // ---------------------------------------------------------------------
  // Decimal digits
  // ---------------------------------------------------------------------

  predicate IsDigit(c: char) {
    '0' <= c <= '9'
  }

  function DigitValue(c: char): (d: nat)
    requires IsDigit(c)
    ensures d < 10
  {
    c as int - '0' as int
  }

  function DigitChar(d: nat): (c: char)
    requires d < 10
    ensures IsDigit(c) && DigitValue(c) == d
  {
    ('0' as int + d) as char
  }

  /** The longest prefix of `s` made of decimal digits. */
  function DigitPrefix(s: string): (r: string)
    ensures r <= s
    ensures forall i :: 0 <= i < |r| ==> IsDigit(r[i])
    ensures |r| < |s| ==> !IsDigit(s[|r|])
    decreases |s|
  {
    if |s| > 0 && IsDigit(s[0]) then [s[0]] + DigitPrefix(s[1..]) else []
  }

  /** The number a string of decimal digits denotes, most significant first. */
  function DigitsValue(ds: string): nat
    requires forall i :: 0 <= i < |ds| ==> IsDigit(ds[i])
    decreases |ds|
  {
    if |ds| == 0 then 0 else DigitsValue(ds[..|ds| - 1]) * 10 + DigitValue(ds[|ds| - 1])
  }

  /** The shortest decimal rendering of `n`. */
  function NatToString(n: nat): (s: string)
    ensures |s| > 0
    ensures forall i :: 0 <= i < |s| ==> IsDigit(s[i])
    ensures |s| > 1 ==> s[0] != '0'
  {
    if n < 10 then [DigitChar(n)] else NatToString(n / 10) + [DigitChar(n % 10)]
  }

  /** `String(n)` for an integer number, as `util.format('%d', n)` also
      prints it. */
  function IntToString(n: int): (s: string)
    ensures |s| > 0 && !IsWhiteSpace(s[0])
  {
    if n < 0 then "-" + NatToString(-n) else NatToString(n)
  }

  // ---------------------------------------------------------------------
  // parseInt(x, 10)
  // ---------------------------------------------------------------------

  /** `parseInt(s, 10)`: skip leading white space, read an optional sign,
      then the longest run of decimal digits; no digit at all is `NaN`
      (`None`). `-0` is rendered as the integer 0. */
  function ParseInt(s: string): (r: Option<int>)
    ensures r.None? <==> DigitPrefix(Unsigned(TrimStart(s))) == []
    ensures r.Some? && r.value < 0 ==> |TrimStart(s)| > 0 && TrimStart(s)[0] == '-'
    ensures r.Some? && |TrimStart(s)| > 0 && TrimStart(s)[0] != '-' ==> r.value >= 0
  {
    ParseTrimmed(TrimStart(s))
  }

  /** `parseInt` once the leading white space is gone. */
  function ParseTrimmed(t: string): Option<int> {
    var digits := DigitPrefix(Unsigned(t));
    var magnitude: int := DigitsValue(digits);
    if |digits| == 0 then None
    else if |t| > 0 && t[0] == '-' then Some(-magnitude)
    else Some(magnitude)
  }

  /** `t` without its leading `+` or `-`, if it has one. */
  function Unsigned(t: string): (r: string)
    ensures r == t || (|t| > 0 && (t[0] == '+' || t[0] == '-') && r == t[1..])
  {
    if |t| > 0 && (t[0] == '-' || t[0] == '+') then t[1..] else t
  }

  /** `parseInt(v, 10)` for a raw option value: a number is first converted
      to its string form, exactly as JavaScript does. */
  function ParseIntValue(v: JsValue): Option<int> {
    match v
    case Text(s) => ParseInt(s)
    case Number(n) => ParseInt(IntToString(n))
  }

  /** Reading the digits `NatToString` writes gives back the number. */
  lemma {:induction false} DigitsValueOfNatToString(n: nat)
    ensures DigitsValue(NatToString(n)) == n
  {
    if n >= 10 {
      var s := NatToString(n);
      assert s[..|s| - 1] == NatToString(n / 10);
      DigitsValueOfNatToString(n / 10);
    }
  }

  /** `parseInt` stops at the first character that is not a digit, so a
      rendered number followed by anything else parses to that number. */
  lemma ParseIntOfRenderedNat(n: nat, rest: string)
    requires |rest| == 0 || !IsDigit(rest[0])
    ensures ParseInt(NatToString(n) + rest) == Some(n)
  {
    var s := NatToString(n) + rest;
    assert TrimStart(s) == s by {
      assert !IsWhiteSpace(s[0]) by { assert IsDigit(s[0]); }
    }
    assert Unsigned(s) == s;
    DigitPrefixOfDigits(NatToString(n), rest);
    DigitsValueOfNatToString(n);
  }

  /** `parseInt(String(n), 10) == n` for every integer `n`, so a number
      option keeps its value through `parseInt`. */
  lemma ParseIntOfNumber(n: int)
    ensures ParseIntValue(Number(n)) == Some(n)
  {
    if n < 0 {
      ParseIntOfNegative(-n);
    } else {
      ParseIntOfRenderedNat(n, []);
      assert NatToString(n) + [] == NatToString(n);
    }
  }

  /** `parseInt` reads a minus sign followed by digits as the negated value. */
  lemma ParseIntOfNegative(m: nat)
    ensures ParseInt("-" + NatToString(m)) == Some(0 - m as int)
  {
    var s := "-" + NatToString(m);
    assert TrimStart(s) == s;
    assert Unsigned(s) == NatToString(m);
    DigitPrefixOfDigits(NatToString(m), []);
    assert NatToString(m) + [] == NatToString(m);
    DigitsValueOfNatToString(m);
  }

  /** A run of decimal digits followed by a non-digit reads as the number
      the digits denote, leading zeros included. */
  lemma ParseIntOfDigits(ds: string, rest: string)
    requires |ds| > 0 && forall i :: 0 <= i < |ds| ==> IsDigit(ds[i])
    requires |rest| == 0 || !IsDigit(rest[0])
    ensures ParseInt(ds + rest) == Some(DigitsValue(ds))
  {
    var s := ds + rest;
    assert TrimStart(s) == s by {
      assert !IsWhiteSpace(s[0]) by { assert s[0] == ds[0]; assert IsDigit(s[0]); }
    }
    assert Unsigned(s) == s by { assert IsDigit(s[0]); }
    DigitPrefixOfDigits(ds, rest);
  }

  /** `parseInt` skips a leading white-space character. */
  lemma ParseIntSkipsWhiteSpace(c: char, s: string)
    requires IsWhiteSpace(c)
    ensures ParseInt([c] + s) == ParseInt(s)
  {
    var cs := [c] + s;
    assert cs[0] == c && cs[1..] == s;
    assert TrimStart(cs) == TrimStart(s);
  }

  /** A `+` in front of the digits changes nothing. */
  lemma ParseIntIgnoresPlus(s: string)
    requires |s| > 0 && IsDigit(s[0])
    ensures ParseInt("+" + s) == ParseInt(s)
  {
    assert ("+" + s)[1..] == s;
    assert TrimStart("+" + s) == "+" + s;
    assert TrimStart(s) == s by { assert !IsWhiteSpace(s[0]) by { assert IsDigit(s[0]); } }
  }

  /** A `-` in front of the digits negates what they read as. */
  lemma ParseIntNegates(s: string)
    requires |s| > 0 && IsDigit(s[0])
    ensures ParseInt(s).Some? && ParseInt("-" + s) == Some(-ParseInt(s).value)
  {
    assert ("-" + s)[1..] == s;
    assert TrimStart("-" + s) == "-" + s;
    assert TrimStart(s) == s by { assert !IsWhiteSpace(s[0]) by { assert IsDigit(s[0]); } }
    assert Unsigned(s) == s by { assert IsDigit(s[0]); }
  }

  /** A leading zero in front of the digits changes nothing. */
  lemma ParseIntLeadingZero(s: string)
    requires |s| > 0 && IsDigit(s[0])
    ensures ParseInt("0" + s) == ParseInt(s)
  {
    var ds := DigitPrefix(s);
    var rest := s[|ds|..];
    assert s == ds + rest;
    assert ("0" + s) == ("0" + ds) + rest;
    ParseIntOfDigits(ds, rest);
    ParseIntOfDigits("0" + ds, rest);
    DigitsValueLeadingZero(ds);
  }

  /** A leading zero adds nothing to the value of a digit string. */
  lemma {:induction false} DigitsValueLeadingZero(ds: string)
    requires forall i :: 0 <= i < |ds| ==> IsDigit(ds[i])
    ensures DigitsValue("0" + ds) == DigitsValue(ds)
    decreases |ds|
  {
    if |ds| > 0 {
      var init := ds[..|ds| - 1];
      assert ("0" + ds)[..|ds|] == "0" + init;
      assert ("0" + ds)[|ds|] == ds[|ds| - 1];
      DigitsValueLeadingZero(init);
    } else {
      assert "0" + ds == "0";
    }
  }

  /** A string with no decimal digit at all is `NaN` to `parseInt`. */
  lemma ParseIntWithoutDigits(s: string)
    requires forall i :: 0 <= i < |s| ==> !IsDigit(s[i])
    ensures ParseInt(s) == None
  {
    var t := TrimStart(s);
    var u := Unsigned(t);
    if |u| > 0 {
      assert u[0] == s[|s| - |u|];
    }
  }

  lemma {:induction false} DigitPrefixOfDigits(ds: string, rest: string)
    requires forall i :: 0 <= i < |ds| ==> IsDigit(ds[i])
    requires |rest| == 0 || !IsDigit(rest[0])
    ensures DigitPrefix(ds + rest) == ds
    decreases |ds|
  {
    if |ds| > 0 {
      assert (ds + rest)[1..] == ds[1..] + rest;
      DigitPrefixOfDigits(ds[1..], rest);
    } else {
      assert ds + rest == rest;
    }
  }

  // ---------------------------------------------------------------------
  // toLowerCase
  // ---------------------------------------------------------------------

  predicate IsAsciiLetter(c: char) {
    ('a' <= c <= 'z') || ('A' <= c <= 'Z')
  }

  /** Lower-casing of one character as far as it can produce an ASCII
      character: `A`-`Z` become `a`-`z`, the KELVIN SIGN (U+212A) becomes
      `k`; every other character lower-cases to itself or to non-ASCII
      text, which is left unchanged here. */
  function LowerChar(c: char): (l: char)
    ensures 'A' <= c <= 'Z' ==> l as int == c as int + 32 && 'a' <= l <= 'z'
    ensures c == '\U{212A}' ==> l == 'k'
    ensures !('A' <= c <= 'Z') && c != '\U{212A}' ==> l == c
  {
    if 'A' <= c <= 'Z' then (c as int - 'A' as int + 'a' as int) as char
    else if c == '\U{212A}' then 'k'
    else c
  }

  /** `s.toLowerCase()`, character by character. */
  function ToLower(s: string): (r: string)
    ensures |r| == |s|
    ensures forall i :: 0 <= i < |s| ==> r[i] == LowerChar(s[i])
  {
    seq(|s|, i requires 0 <= i < |s| => LowerChar(s[i]))
  }

  /** `c` is `l` itself or, when `l` is a lower-case ASCII letter, its
      capital. */
  predicate CaseVariant(c: char, l: char) {
    c == l || ('a' <= l <= 'z' && c as int == l as int - 32)
  }

  /** Lower-casing ignores ASCII case: any spelling of a string without
      capitals or the Kelvin sign, with some of its letters capitalised,
      lower-cases back to it. */
  lemma ToLowerOfCaseVariant(s: string, lower: string)
    requires |s| == |lower|
    requires forall i :: 0 <= i < |s| ==> CaseVariant(s[i], lower[i])
    requires forall i :: 0 <= i < |lower| ==> !('A' <= lower[i] <= 'Z') && lower[i] != '\U{212A}'
    ensures ToLower(s) == lower
  {
  }

  // ---------------------------------------------------------------------
  // split and join
  // ---------------------------------------------------------------------

  /** `s.split(sep)` for a one-character separator: the pieces between
      separators, at least one, none containing the separator. */
  function Split(s: string, sep: char): (parts: seq<string>)
    ensures |parts| > 0
    ensures forall k :: 0 <= k < |parts| ==> sep !in parts[k]
    decreases |s|
  {
    if |s| == 0 then [[]]
    else
      var rest := Split(s[1..], sep);
      if s[0] == sep then [[]] + rest
      else [[s[0]] + rest[0]] + rest[1..]
  }

  /** `parts.join(sep)`. */
  function Join(parts: seq<string>, sep: char): string
    decreases |parts|
  {
    if |parts| == 0 then []
    else if |parts| == 1 then parts[0]
    else parts[0] + [sep] + Join(parts[1..], sep)
  }

  /** Joining the pieces of a split gives back the original string. */
  lemma {:induction false} JoinSplit(s: string, sep: char)
    ensures Join(Split(s, sep), sep) == s
    decreases |s|
  {
    if |s| > 0 {
      var rest := Split(s[1..], sep);
      JoinSplit(s[1..], sep);
      if s[0] == sep {
        assert Split(s, sep) == [[]] + rest;
        assert ([[]] + rest)[1..] == rest;
        assert Join(Split(s, sep), sep) == [] + [sep] + Join(rest, sep);
        assert s == [s[0]] + s[1..];
      } else {
        var parts := Split(s, sep);
        assert parts == [[s[0]] + rest[0]] + rest[1..];
        if |rest| == 1 {
          assert Join(rest, sep) == rest[0];
          assert Join(parts, sep) == [s[0]] + rest[0];
        } else {
          assert Join(rest, sep) == rest[0] + [sep] + Join(rest[1..], sep);
          assert parts[1..] == rest[1..];
          assert Join(parts, sep) == ([s[0]] + rest[0]) + [sep] + Join(rest[1..], sep);
        }
        assert s == [s[0]] + s[1..];
      }
    }
  }

  /** Splitting a join of separator-free pieces gives back the pieces. */
  lemma {:induction false} SplitJoin(parts: seq<string>, sep: char)
    requires |parts| > 0
    requires forall k :: 0 <= k < |parts| ==> sep !in parts[k]
    ensures Split(Join(parts, sep), sep) == parts
    decreases |parts|, |parts[0]|
  {
    var p := parts[0];
    if |p| > 0 {
      // Peel off the first character of the first piece.
      var parts' := [p[1..]] + parts[1..];
      assert parts'[0] == p[1..] && parts'[1..] == parts[1..];
      assert forall k :: 0 <= k < |parts'| ==> sep !in parts'[k] by {
        forall k | 0 <= k < |parts'| ensures sep !in parts'[k] {
          if k == 0 {
            assert forall c :: c in p[1..] ==> c in p;
          } else {
            assert parts'[k] == parts[k];
          }
        }
      }
      SplitJoin(parts', sep);
      var j := Join(parts, sep);
      var j' := Join(parts', sep);
      if |parts| == 1 {
        assert j == p && j' == p[1..];
      } else {
        assert j == p + [sep] + Join(parts[1..], sep);
        assert j' == p[1..] + [sep] + Join(parts[1..], sep);
      }
      assert j == [p[0]] + j';
      assert j[0] == p[0] && j[1..] == j';
      assert p[0] != sep by { assert p[0] in p; }
      assert Split(j, sep) == [[p[0]] + parts'[0]] + parts'[1..];
      assert [p[0]] + p[1..] == p;
    } else if |parts| == 1 {
      assert Join(parts, sep) == [];
    } else {
      var j := Join(parts, sep);
      assert j == [] + [sep] + Join(parts[1..], sep);
      assert forall k :: 0 <= k < |parts[1..]| ==> sep !in parts[1..][k] by {
        forall k | 0 <= k < |parts[1..]| ensures sep !in parts[1..][k] {
          assert parts[1..][k] == parts[k + 1];
        }
      }
      SplitJoin(parts[1..], sep);
      assert j[1..] == Join(parts[1..], sep);
      assert Split(j, sep) == [[]] + parts[1..];
      assert parts == [p] + parts[1..];
    }
  }

  /** A string without the separator splits into itself alone. */
  lemma SplitWithoutSeparator(s: string, sep: char)
    requires sep !in s
    ensures Split(s, sep) == [s]
  {
    SplitJoin([s], sep);
  }
}

=== FILE: pipeline.dfy ===
/** The library's entry point: validate every option, fetch the peer
    certificate, evaluate its expiry and, when an alert is due and a
    transport is configured, send the alert and merge its outcome into the
    result. The TLS fetch is a parameter `fetch` (a certificate, or the
    socket's error message) and the Mailgun call a parameter `send`; the
    current time is the parameter `now`. */
module Pipeline {
  import opened Wrappers
  import opened JsRuntime
  import opened Config
  import opened Expiry
  import opened Alert

  /** Everything option checking settles on before the network is touched. */
  datatype Validated = Validated(tls: TlsOptions, transport: Option<Transport>, alertDays: int)

  /** The object the entry point resolves with: the evaluation, and the
      send outcome's fields when an alert was sent. */
  datatype CheckResult = CheckResult(daysExpireRemains: int, expiryStatus: bool, alert: Option<AlertOutcome>)

  /** Option checking, in the library's order: TLS options first, then the
      transport; the threshold cannot fail. The first failure is the one
      reported. */
  function Validate(options: RawOptions, isEmail: string -> bool): (r: Result<Validated>)
    ensures GetTlsOptions(options).Failure? ==> r == Failure(GetTlsOptions(options).error)
    ensures GetTlsOptions(options).Success? && GetAlertTransport(options.alertTransport, isEmail).Failure? ==>
      r == Failure(GetAlertTransport(options.alertTransport, isEmail).error)
    ensures r.Success? <==>
      GetTlsOptions(options).Success? && GetAlertTransport(options.alertTransport, isEmail).Success?
    ensures r.Success? ==>
      && r.value.tls == GetTlsOptions(options).value
      && r.value.tls.host == options.host.value
      && r.value.alertDays >= 1
      && r.value.alertDays == GetAlertDaysBeforeExpiry(options.alertDaysBeforeExpiry)
      && r.value.transport == GetAlertTransport(options.alertTransport, isEmail).value
  {
    var tls :- GetTlsOptions(options);
    var transport :- GetAlertTransport(options.alertTransport, isEmail);
    var alertDays := GetAlertDaysBeforeExpiry(options.alertDaysBeforeExpiry);
    Success(Validated(tls, transport, alertDays))
  }

  /** The whole check. Validation failures and fetch failures propagate
      unchanged; a failed send never fails the check. The evaluation is
      reported as computed, and a send outcome is attached exactly when a
      transport is configured and an alert is due. */
  function Check(options: RawOptions, isEmail: string -> bool, now: int,
                 fetch: TlsOptions -> Result<Certificate>,
                 send: MailgunMessage -> Result<string>): (r: Result<CheckResult>)
    ensures Validate(options, isEmail).Failure? ==> r == Failure(Validate(options, isEmail).error)
    ensures Validate(options, isEmail).Success? ==>
      var v := Validate(options, isEmail).value;
      && (fetch(v.tls).Failure? ==> r == Failure(fetch(v.tls).error))
      && (fetch(v.tls).Success? ==>
            var e := ShouldAlertSslExpiry(fetch(v.tls).value, now, v.alertDays);
            && (e.Failure? ==> r == Failure(e.error))
            && (e.Success? ==>
                  && r.Success?
                  && r.value.daysExpireRemains == e.value.daysExpireRemains
                  && r.value.expiryStatus == e.value.expiryStatus
                  && (r.value.alert.Some? <==> v.transport.Some? && e.value.expiryStatus)
                  && (r.value.alert.Some? ==>
                        r.value.alert == ProcessSendAlert(e.value, v.tls, v.transport.value, send))))
  {
    var v :- Validate(options, isEmail);
    var cert :- fetch(v.tls);
    var e :- ShouldAlertSslExpiry(cert, now, v.alertDays);
    var outcome := if v.transport.Some? then ProcessSendAlert(e, v.tls, v.transport.value, send) else None;
    Success(CheckResult(e.daysExpireRemains, e.expiryStatus, outcome))
  }

  /** Every validation runs before any certificate fetch: when validation
      fails, the result is its error whatever the network, the clock or the
      mail provider would have done. */
  lemma ValidationBeforeFetch(options: RawOptions, isEmail: string -> bool,
                              now1: int, fetch1: TlsOptions -> Result<Certificate>, send1: MailgunMessage -> Result<string>,
                              now2: int, fetch2: TlsOptions -> Result<Certificate>, send2: MailgunMessage -> Result<string>)
    requires Validate(options, isEmail).Failure?
    ensures Check(options, isEmail, now1, fetch1, send1) == Check(options, isEmail, now2, fetch2, send2)
    ensures Check(options, isEmail, now1, fetch1, send1).Failure?
  {
  }

  /** The mail provider cannot change the evaluation: two runs that differ
      only in `send` agree on success, days and status, and on whether an
      outcome is attached. */
  lemma SendDoesNotAffectEvaluation(options: RawOptions, isEmail: string -> bool, now: int,
                                    fetch: TlsOptions -> Result<Certificate>,
                                    send1: MailgunMessage -> Result<string>, send2: MailgunMessage -> Result<string>)
    ensures var r1 := Check(options, isEmail, now, fetch, send1);
            var r2 := Check(options, isEmail, now, fetch, send2);
            && r1.Success? == r2.Success?
            && (r1.Failure? ==> r1 == r2)
            && (r1.Success? ==>
                  && r1.value.daysExpireRemains == r2.value.daysExpireRemains
                  && r1.value.expiryStatus == r2.value.expiryStatus
                  && r1.value.alert.Some? == r2.value.alert.Some?)
  {
    var val := Validate(options, isEmail);
    if val.Success? {
      var v := val.value;
      if fetch(v.tls).Success? {
        var e := ShouldAlertSslExpiry(fetch(v.tls).value, now, v.alertDays);
        assert e.Success? ==> Check(options, isEmail, now, fetch, send1).Success?;
      }
    }
  }

  /** A broken mail provider never fails the check: with a configured
      transport and an alert due, the result carries the evaluation and an
      undelivered outcome holding the provider's error message. */
  lemma SendFailureIsCaptured(options: RawOptions, isEmail: string -> bool, now: int,
                              fetch: TlsOptions -> Result<Certificate>, message: string)
    requires Validate(options, isEmail).Success?
    requires Validate(options, isEmail).value.transport.Some?
    requires fetch(Validate(options, isEmail).value.tls).Success?
    requires var v := Validate(options, isEmail).value;
             var e := ShouldAlertSslExpiry(fetch(v.tls).value, now, v.alertDays);
             e.Success? && e.value.expiryStatus
    ensures var v := Validate(options, isEmail).value;
            var e := ShouldAlertSslExpiry(fetch(v.tls).value, now, v.alertDays).value;
            Check(options, isEmail, now, fetch, (m: MailgunMessage) => Failure(message))
              == Success(CheckResult(e.daysExpireRemains, true, Some(AlertOutcome(false, message))))
  {
  }

  /** An expired certificate is reported as -1 days and alerting, whatever
      the threshold the options ask for. */
  lemma ExpiredCertificateAlwaysAlerts(options: RawOptions, isEmail: string -> bool, now: int,
                                       fetch: TlsOptions -> Result<Certificate>,
                                       send: MailgunMessage -> Result<string>)
    requires Validate(options, isEmail).Success?
    requires var cert := fetch(Validate(options, isEmail).value.tls);
             cert.Success? && cert.value.validFrom.Some? && cert.value.validTo.Some? && now > cert.value.validTo.value
    ensures Check(options, isEmail, now, fetch, send).Success?
    ensures Check(options, isEmail, now, fetch, send).value.daysExpireRemains == Expired
    ensures Check(options, isEmail, now, fetch, send).value.expiryStatus
  {
    var v := Validate(options, isEmail).value;
    var e := ShouldAlertSslExpiry(fetch(v.tls).value, now, v.alertDays);
    assert e == Success(Evaluation(Expired, true));
  }

  /** A Mailgun transport with an invalid recipient stops the check during
      validation, before any connection, with the first invalid recipient
      named in the error. */
  lemma InvalidRecipientFailsBeforeFetch(options: RawOptions, isEmail: string -> bool, now: int,
                                         fetch: TlsOptions -> Result<Certificate>,
                                         send: MailgunMessage -> Result<string>, i: nat)
    requires GetTlsOptions(options).Success?
    requires options.alertTransport.Some?
    requires var t := options.alertTransport.value;
             && t.name == Some("mailgun") && t.domain.Some? && t.apiKey.Some?
             && t.emailFrom.Some? && isEmail(t.emailFrom.value) && t.emailsTo.Some?
    requires var list := RecipientList(options.alertTransport.value.emailsTo.value);
             && i < |list| && !isEmail(list[i])
             && forall j :: 0 <= j < i ==> isEmail(list[j])
    ensures Check(options, isEmail, now, fetch, send)
         == Failure("Invalid Alert Transport Email To, " + RecipientList(options.alertTransport.value.emailsTo.value)[i])
  {
    var t := options.alertTransport.value;
    InvalidRecipientNamed(t, isEmail, i);
    var err := "Invalid Alert Transport Email To, " + RecipientList(t.emailsTo.value)[i];
    assert GetAlertTransport(options.alertTransport, isEmail) == Failure(err);
    assert Validate(options, isEmail) == Failure(err);
  }
}

=== FILE: wrappers.dfy ===
/** How the model writes JavaScript's absent values and settled Promises.
    - `Option<T>` is a value that may be `undefined` (or, for `parseInt`, a
      number that may be `NaN`).
    - `Result<T>` is a Promise once settled: `Success` carries what it
      resolved with, `Failure` the message of the `Error` it rejected with.
      The validators chain with `:-`, so the first rejection is the one
      reported, as with consecutive `await`s.
 */
module Wrappers {

  datatype Option<+T> = None | Some(value: T) {

    /** The value, or `default` when the value is absent. */
    function GetOr(default: T): T {
      match this
      case Some(v) => v
      case None => default
    }
  }

  datatype Result<+T> = Success(value: T) | Failure(error: string) {

    predicate IsFailure() {
      Failure?
    }

    function PropagateFailure<U>(): Result<U>
      requires Failure?
    {
      Failure(error)
    }

    function Extract(): T
      requires Success?
    {
      value
    }
  }
}
